=== FILE: README.md ===
# Star Wars client: a Dafny model of its search, filter, sort and details logic

The application is an Android client for the public Star Wars API. A user picks one of
three categories: Characters, Planets or Ships. The app fetches the whole list and shows
it, and the user can:

- search the list by name, ignoring case;
- sort it by name, ascending or descending;
- filter characters by species and gender in a bottom sheet;
- open a details page for one entry;
- pick two characters to compare.

Three view models drive the screens: the search, details and compare view models. Each
one fetches through a repository, publishes a state value and turns that value into
`isLoading` / `isError` / `isSuccess` / `errorMessage` flags. The screens show the first
of these that holds: a spinner, then an error text, then the content.

This project models that logic as pure Dafny functions over immutable datatypes and
proves properties of it:

- **Modules.** There is one module per source file (`Filter`, `Sorting`, `SearchViewModel`,
  `DetailsViewModel`, `CompareViewModel`, `BottomSheet`, `SearchScreen`, `DetailsScreen`,
  `ListResults`, `ScreenSize`). A few shared modules sit beside them:
  - `Wrappers`: Kotlin nullability as `Option`.
  - `Text`: ASCII case folding, `contains(ignoreCase = true)` and string order.
  - `Seqs`: `filter` and its characterization.
  - `Entities`: the records and the connectivity `Status`.
  - `Remote`: a repository reply.
  - `Decimal`: `Int.toString` / `String.toInt`.
  - `Render`: the spinner / error / content choice.
- **Replies.** A repository reply is either `Response(isSuccessful, body, message)` or
  `Thrown(message)`. `Thrown` stands for an exception from Retrofit.
- **Network status.** The connectivity status is a parameter of every operation that
  reads it.
- **Observers.** A view model's observer is modelled as reacting once to each state it is
  handed.
- **Globals.** The screens' top-level mutable lists and remembered values are fields of
  explicit `Screen` / `Sheet` / `Connect` records. Each handler returns the new record.

Where the code and its documentation disagree, the model follows the code:

- **Descending order on ties.** A name-descending sort is not the reverse of the
  ascending one when two names are equal: both sorts are stable, so tied entries keep
  their input order. `Sorting.TiesBreakReverseSymmetry` shows this.
  `Sorting.DescendingIsReversedAscending` shows that the two agree when names are distinct.
- **Species filter.** It compares the selected species names with the character's
  `species` entries directly. The app's species list is not consulted.
- **Filter call arity.** The bottom sheet calls `filterCharacters` with a fourth argument,
  the species list, but `utils/filter/Filter.kt` declares three parameters. The model
  uses the declared three.
- **Missing members.**
  - `Sorting.sortCharacterWhenSearch`, called from the bottom sheet, does not exist in
    `utils/sort/Sorting.kt`.
  - `screens.allCharactersSaved`, read by `searchCharactersByName`, is not declared in the
    source files.

  The saved list is a value handed in, `saved`. The re-sort is a function handed in,
  `resort`, that the bottom sheet applies to the displayed list last.
- **Error text case.** `DetailsScreen.checkIfIsConnected` writes "No internet
  connection". The view models write "No Internet Connection". The model keeps both
  texts (`DetailsScreen.NoConnection`, `Remote.NoInternet`).

## Model

| member | source | states |
|---|---|---|
| Filter.FilterCharacters | app/src/main/java/com/example/starwars/utils/filter/Filter.kt:7-37 | null saved list gives null and only then; otherwise the result is exactly the saved characters, in order, that pass the species test (any of the character's species is selected, ignoring case) and the gender test; with no species and no gender selected the saved list comes back unchanged |
| Filter.LowerAll | app/src/main/java/com/example/starwars/utils/filter/Filter.kt:17-18 | every selected option is lower-cased position by position and none is lost |
| Filter.PassesIffSelected | app/src/main/java/com/example/starwars/utils/filter/Filter.kt:14-35 | the code's test with its precomputed flags and lower-cased lists accepts a character exactly when the plain reading "species selected ⇒ one of its species matches, gender selected ⇒ its gender matches" does |
| Filter.SpeciesPassesIff | app/src/main/java/com/example/starwars/utils/filter/Filter.kt:17-24 | a character's lowered species entry is in the lowered selection exactly when one of its species equals a selected species ignoring case |
| Filter.GenderPassesIff | app/src/main/java/com/example/starwars/utils/filter/Filter.kt:18-30 | the character's lowered gender is in the lowered selection exactly when it equals a selected gender ignoring case |
| Filter.AddSpeciesNeverRemoves | app/src/main/java/com/example/starwars/utils/filter/Filter.kt:21-24 | selecting one more species (with some already selected) never drops a character from the result: the old result is a subsequence of the new |
| Filter.AddGenderNeverRemoves | app/src/main/java/com/example/starwars/utils/filter/Filter.kt:29-30 | selecting one more gender never drops a character from the result |
| Filter.FilterIsKeep | app/src/main/java/com/example/starwars/utils/filter/Filter.kt:20-36 | the filtered list equals the reference Kotlin `filter` of the saved list by the selection predicate |
| Text.ContainsIgnoreCaseIffOccurs | app/src/main/java/com/example/starwars/networking/viewModel/SearchViewModel.kt:284 | `contains(q, ignoreCase = true)` holds exactly when q, case-folded, occurs at some position of the name |
| Text.ContainsEmpty | app/src/main/java/com/example/starwars/networking/viewModel/SearchViewModel.kt:284 | every name contains the empty query |
| Text.OccursAtZero | app/src/main/java/com/example/starwars/networking/viewModel/SearchViewModel.kt:284 | an occurrence at position 0 is the same as a case-insensitive prefix |
| Text.LowerStr | app/src/main/java/com/example/starwars/utils/filter/Filter.kt:23 | `lowercase()` keeps length and folds every character |
| Text.LeReflexive | app/src/main/java/com/example/starwars/utils/sort/Sorting.kt:11 | the string order used by `sortedBy { it.name }` is reflexive |
| Text.LeAntisymmetric | app/src/main/java/com/example/starwars/utils/sort/Sorting.kt:11 | two names each at most the other are equal |
| Text.LeTransitive | app/src/main/java/com/example/starwars/utils/sort/Sorting.kt:11 | the string order is transitive |
| Text.LeTotal | app/src/main/java/com/example/starwars/utils/sort/Sorting.kt:11 | any two names are comparable |
| Sorting.InOrderReflexive | app/src/main/java/com/example/starwars/utils/sort/Sorting.kt:9-49 | each sort direction relates a name to itself |
| Sorting.InOrderTotal | app/src/main/java/com/example/starwars/utils/sort/Sorting.kt:9-49 | each sort direction relates any two names one way or the other |
| Sorting.InOrderTransitive | app/src/main/java/com/example/starwars/utils/sort/Sorting.kt:9-49 | each sort direction is transitive |
| Sorting.InOrderAntisymmetric | app/src/main/java/com/example/starwars/utils/sort/Sorting.kt:9-49 | two names in order both ways are equal |
| Sorting.Insert | app/src/main/java/com/example/starwars/utils/sort/Sorting.kt:11 | inserting adds exactly the one element to the multiset |
| Sorting.InsertSorted | app/src/main/java/com/example/starwars/utils/sort/Sorting.kt:11 | inserting into a sorted list keeps it sorted |
| Sorting.SortBy | app/src/main/java/com/example/starwars/utils/sort/Sorting.kt:9-49 | the sort result is a permutation of its input and is ordered by name in the chosen direction |
| Sorting.InsertKeyClass | app/src/main/java/com/example/starwars/utils/sort/Sorting.kt:11 | inserting x changes the subsequence of any one name only by placing x in front of the entries sharing its name |
| Sorting.SortByStable | app/src/main/java/com/example/starwars/utils/sort/Sorting.kt:11 | stability: the entries sharing any one name appear in the sorted list in their input order |
| Sorting.SortBySortedIsIdentity | app/src/main/java/com/example/starwars/utils/sort/Sorting.kt:11 | sorting an already sorted list leaves it unchanged |
| Sorting.SortByIdempotent | app/src/main/java/com/example/starwars/utils/sort/Sorting.kt:11 | sorting twice equals sorting once |
| Sorting.KeyClassHead | app/src/main/java/com/example/starwars/utils/sort/Sorting.kt:11 | the entries with a given name split at the head of the list |
| Sorting.KeyClassMember | app/src/main/java/com/example/starwars/utils/sort/Sorting.kt:11 | an entry of a name's subsequence comes from the list and has that name |
| Sorting.SortedTail | app/src/main/java/com/example/starwars/utils/sort/Sorting.kt:11 | the tail of a sorted list is sorted |
| Sorting.TailClasses | app/src/main/java/com/example/starwars/utils/sort/Sorting.kt:11 | two lists with the same head and the same per-name subsequences have tails with the same per-name subsequences |
| Sorting.SortedSameHead | app/src/main/java/com/example/starwars/utils/sort/Sorting.kt:11 | two sorted lists with the same per-name subsequences start with the same entry |
| Sorting.SortedUnique | app/src/main/java/com/example/starwars/utils/sort/Sorting.kt:11 | a sorted list is determined by its per-name subsequences: a stable sort has exactly one possible result |
| Sorting.SortByIsStableSort | app/src/main/java/com/example/starwars/utils/sort/Sorting.kt:9-49 | the model's sort meets the definition of a stable sort (sorted, same entries per name in the same order) |
| Sorting.StableSortIsSortBy | app/src/main/java/com/example/starwars/utils/sort/Sorting.kt:9-49 | any stable sort of the list equals the model's sort, so `sortedBy` / `sortedByDescending` are fully determined |
| Sorting.KeyClassReverse | app/src/main/java/com/example/starwars/utils/sort/Sorting.kt:18 | reversing a list reverses each name's subsequence |
| Sorting.KeyClassOfDistinct | app/src/main/java/com/example/starwars/utils/sort/Sorting.kt:18 | with distinct names each name's subsequence has at most one entry |
| Sorting.ReverseOfAscendingIsDescending | app/src/main/java/com/example/starwars/utils/sort/Sorting.kt:16-21 | the reverse of an ascending list is descending |
| Sorting.DescendingIsReversedAscending | app/src/main/java/com/example/starwars/utils/sort/Sorting.kt:9-21 | with pairwise distinct names the descending sort is the reverse of the ascending one |
| Sorting.SortNullable | app/src/main/java/com/example/starwars/utils/sort/Sorting.kt:9-14 | a null list stays null (the `?.let` … `return null` path); a list gives its stable sort |
| Sorting.SortNullableIdempotent | app/src/main/java/com/example/starwars/utils/sort/Sorting.kt:9-14 | sorting a nullable list twice equals sorting it once |
| Sorting.SortCharactersByNameAscendant | app/src/main/java/com/example/starwars/utils/sort/Sorting.kt:9-14 | null gives null; otherwise a stable ascending sort of the characters by name |
| Sorting.SortCharactersByNameDescendant | app/src/main/java/com/example/starwars/utils/sort/Sorting.kt:16-21 | null gives null; otherwise a stable descending sort of the characters by name |
| Sorting.SortPlanetsByNameAscendant | app/src/main/java/com/example/starwars/utils/sort/Sorting.kt:23-28 | null gives null; otherwise a stable ascending sort of the planets by name |
| Sorting.SortPlanetsByNameDescendant | app/src/main/java/com/example/starwars/utils/sort/Sorting.kt:30-35 | null gives null; otherwise a stable descending sort of the planets by name |
| Sorting.SortVehiclesByNameAscendant | app/src/main/java/com/example/starwars/utils/sort/Sorting.kt:37-42 | null gives null; otherwise a stable ascending sort of the ships by name |
| Sorting.SortVehiclesByNameDescendant | app/src/main/java/com/example/starwars/utils/sort/Sorting.kt:44-49 | null gives null; otherwise a stable descending sort of the ships by name |
| Sorting.AscendingExample | app/src/main/java/com/example/starwars/utils/sort/Sorting.kt:9-21 | Luke, Han, Leia sort to Han, Leia, Luke ascending |
| Sorting.DescendingExample | app/src/main/java/com/example/starwars/utils/sort/Sorting.kt:9-21 | Luke, Han, Leia sort to Luke, Leia, Han descending |
| Sorting.TiesBreakReverseSymmetry | app/src/main/java/com/example/starwars/utils/sort/Sorting.kt:9-21 | two characters both named Han keep their input order in both directions, so descending is not reversed ascending |
| Decimal.NatToString | app/src/main/java/com/example/starwars/components/ListResults.kt:163 | `index.toString()` is a non-empty string of decimal digits without a leading zero |
| Decimal.NatToStringValue | app/src/main/java/com/example/starwars/components/ListResults.kt:163 | the printed digits denote the number printed |
| Decimal.NatToStringInjective | app/src/main/java/com/example/starwars/components/ListResults.kt:163 | different indices print differently, so index keys never collide with each other |
| Decimal.ToInt | app/src/main/java/com/example/starwars/screens/DetailsScreen.kt:373 | `itemId.toInt()` succeeds only with a value in the 32-bit range; it throws on the empty string, on a lone sign and on any character that is neither a digit nor a leading sign; plain digits within range give their decimal value, and a leading sign gives the signed value |
| Decimal.ToIntRejectsLetter | app/src/main/java/com/example/starwars/screens/DetailsScreen.kt:373 | "1a", "-" and "+" make `toInt()` throw |
| Decimal.ToIntSigned | app/src/main/java/com/example/starwars/screens/DetailsScreen.kt:373 | "+5" parses to 5 and "-5" to -5 |
| Decimal.ToIntOfNatToString | app/src/main/java/com/example/starwars/screens/DetailsScreen.kt:373 | parsing a printed number up to Int.MAX_VALUE gives it back |
| Decimal.ToIntOfNegative | app/src/main/java/com/example/starwars/screens/DetailsScreen.kt:373 | a minus sign before a printed number down to Int.MIN_VALUE parses to its negation |
| Decimal.ToIntOverflows | app/src/main/java/com/example/starwars/screens/DetailsScreen.kt:373 | one past Int.MAX_VALUE does not parse (the `NumberFormatException` path) |
| SearchViewModel.GetCharacters | app/src/main/java/com/example/starwars/networking/viewModel/SearchViewModel.kt:100-143 | the repository is asked only when online; offline the state is the "No Internet Connection" error; a successful reply with a body becomes the list, is stored in allCharacters, clears the error and asks for species; any other reply or an exception becomes an error state whose message becomes errorMessage, with isError set and loading cleared; planet, ship and species data are untouched |
| SearchViewModel.GetPlanets | app/src/main/java/com/example/starwars/networking/viewModel/SearchViewModel.kt:145-188 | as for characters (an error state's message becomes errorMessage), but success sets isSuccess and stores allPlanets without asking for species; other lists are untouched |
| SearchViewModel.GetVehicles | app/src/main/java/com/example/starwars/networking/viewModel/SearchViewModel.kt:190-232 | as for planets, for ships and allVehicles |
| SearchViewModel.GetSpecies | app/src/main/java/com/example/starwars/networking/viewModel/SearchViewModel.kt:234-278 | as for planets, for species; an error also clears isSuccess |
| SearchViewModel.OfflineIgnoresReply | app/src/main/java/com/example/starwars/networking/viewModel/SearchViewModel.kt:104-108 | offline, the four fetches end the same whatever the repository would have answered |
| SearchViewModel.CharactersThenSpecies | app/src/main/java/com/example/starwars/networking/viewModel/SearchViewModel.kt:127-133 | a delivered character list followed by the species fetch it triggers ends with both lists stored, no error and isSuccess set |
| SearchViewModel.SearchCharactersByName | app/src/main/java/com/example/starwars/networking/viewModel/SearchViewModel.kt:280-292 | the source is the filtered list when non-empty, else allCharacters when non-empty, else the saved list; the result is exactly the source's entries whose name contains the query ignoring case, in order; null only when all three are missing |
| SearchViewModel.SearchPlanetsByName | app/src/main/java/com/example/starwars/networking/viewModel/SearchViewModel.kt:294-299 | null exactly when allPlanets is null; otherwise exactly the planets whose name contains the query ignoring case |
| SearchViewModel.SearchShipsByName | app/src/main/java/com/example/starwars/networking/viewModel/SearchViewModel.kt:301-306 | null exactly when allVehicles is null; otherwise exactly the ships whose name contains the query ignoring case |
| SearchViewModel.EmptyQueryReturnsSource | app/src/main/java/com/example/starwars/networking/viewModel/SearchViewModel.kt:280-306 | an empty query returns each search's source list whole |
| SearchViewModel.InitialFetch | app/src/main/java/com/example/starwars/networking/viewModel/SearchViewModel.kt:58-78 | on creation the view model fetches the chosen category exactly when its displayed list is null or empty, and nothing for an unknown option |
| DetailsViewModel.ShowsExactlyOneFlag | app/src/main/java/com/example/starwars/networking/viewModel/DetailsViewModel.kt:196-200 | after an observer has run, exactly one of isLoading, isSuccess, isError holds |
| DetailsViewModel.ObserveCharacter | app/src/main/java/com/example/starwars/networking/viewModel/DetailsViewModel.kt:193-220 | the flags mirror the character state (loading / success / error with its message) and characterDetails holds the item exactly on success; nothing else changes |
| DetailsViewModel.ObservePlanet | app/src/main/java/com/example/starwars/networking/viewModel/DetailsViewModel.kt:256-282 | the same for the planet state and planetDetails |
| DetailsViewModel.ObserveShip | app/src/main/java/com/example/starwars/networking/viewModel/DetailsViewModel.kt:319-345 | the same for the ship state and vehicleDetails |
| DetailsViewModel.Initial | app/src/main/java/com/example/starwars/networking/viewModel/DetailsViewModel.kt:146-151 | after construction all three states are loading, the observers have shown a spinner, and no details are held |
| DetailsViewModel.GetCharacter | app/src/main/java/com/example/starwars/networking/viewModel/DetailsViewModel.kt:159-187 | the repository is asked for exactly that id only when online; the state ends loaded: "No Internet Connection" offline, the body on a successful reply, the reply's message or "Failed to fetch character" otherwise, the exception's message or "An unknown error occurred" on a throw; flags and details follow the state; planet and ship data are untouched |
| DetailsViewModel.GetPlanet | app/src/main/java/com/example/starwars/networking/viewModel/DetailsViewModel.kt:227-254 | as for characters, for planets with "Failed to fetch planet" |
| DetailsViewModel.GetShip | app/src/main/java/com/example/starwars/networking/viewModel/DetailsViewModel.kt:289-317 | as for characters, for ships with "Failed to fetch ship" |
| DetailsViewModel.FailureMessageNonEmpty | app/src/main/java/com/example/starwars/networking/viewModel/DetailsViewModel.kt:177-179 | without an exception, an error shown by a fetch always carries a non-empty message |
| DetailsViewModel.RunKeepsDetailsAgreeing | app/src/main/java/com/example/starwars/networking/viewModel/DetailsViewModel.kt:159-345 | over any sequence of fetches each details field holds an item exactly when its state is a success with that item |
| DetailsViewModel.RunShowsLastCall | app/src/main/java/com/example/starwars/networking/viewModel/DetailsViewModel.kt:159-345 | after any non-empty sequence of fetches the shared flags reflect the last fetch's state |
| CompareViewModel.GetCharacter | app/src/main/java/com/example/starwars/networking/viewModel/CompareCharactersViewModel.kt:70-135 | as written: online the repository is asked for the id or 1, the observer starts and the first delivered character fills slot 1, later ones slot 2; offline the state becomes the "No Internet Connection" error but no observer is started; slot 1 never changes once filled; isSuccess needs both slots |
| CompareViewModel.OfflineFirstCallKeepsLoading | app/src/main/java/com/example/starwars/networking/viewModel/CompareCharactersViewModel.kt:72-80 | on a fresh view model an offline call leaves isLoading true and isError false although the state is an error |
| CompareViewModel.GetCharacterObserved | app/src/main/java/com/example/starwars/networking/viewModel/CompareCharactersViewModel.kt:70-135 | corrected: the observer runs on every path, so the call always ends not loading, with isError exactly when the state is an error and the error's message shown |
| CompareViewModel.ObservedAgreesWhenObserving | app/src/main/java/com/example/starwars/networking/viewModel/CompareCharactersViewModel.kt:77-96 | the corrected call differs from the code only offline before any observer exists |
| CompareViewModel.TwoFetchesFillBothSlots | app/src/main/java/com/example/starwars/networking/viewModel/CompareCharactersViewModel.kt:105-114 | two delivered characters fill slot 1 then slot 2 and set isSuccess |
| CompareViewModel.RunKeepsSlot1 | app/src/main/java/com/example/starwars/networking/viewModel/CompareCharactersViewModel.kt:106-110 | as written: once slot 1 holds a character no later fetch, online or offline, replaces it |
| CompareViewModel.RunSuccessNeedsBothSlots | app/src/main/java/com/example/starwars/networking/viewModel/CompareCharactersViewModel.kt:112-114 | as written: after at least one fetch, or from a state where it already holds, isSuccess implies both slots are filled |
| CompareViewModel.RunFromInitial | app/src/main/java/com/example/starwars/networking/viewModel/CompareCharactersViewModel.kt:105-114 | as written: no run of fetches from a new view model shows success with an empty slot |
| CompareViewModel.OfflineRunKeepsLoading | app/src/main/java/com/example/starwars/networking/viewModel/CompareCharactersViewModel.kt:72-80 | as written: any number of offline calls on a view model never online leave isLoading true and isError false |
| Render.Priority | app/src/main/java/com/example/starwars/screens/SearchScreen.kt:183-213 | spinner exactly when isLoading is true; error text (the message, or "Unknown error" when null) exactly when not loading and isError; content exactly when neither and isSuccess; nothing otherwise |
| SearchScreen.RenderSearch | app/src/main/java/com/example/starwars/screens/SearchScreen.kt:104-107 | without a view model every flag reads null and nothing is shown; otherwise the view model's flags decide by that priority |
| SearchScreen.OfflineFetchShowsError | app/src/main/java/com/example/starwars/screens/SearchScreen.kt:183-208 | an offline fetch of characters, planets or ships ends with the screen showing "No Internet Connection" |
| SearchScreen.DeliveredListShowsContent | app/src/main/java/com/example/starwars/screens/SearchScreen.kt:183-213 | a delivered planet or ship list ends with the list shown |
| SearchScreen.SortCharactersName | app/src/main/java/com/example/starwars/screens/SearchScreen.kt:467-481 | the displayed characters are replaced by their stable sort in the given direction; nothing else on the screen changes |
| SearchScreen.SortPlanetsName | app/src/main/java/com/example/starwars/screens/SearchScreen.kt:483-497 | the same for the displayed planets |
| SearchScreen.SortShipsName | app/src/main/java/com/example/starwars/screens/SearchScreen.kt:499-513 | the same for the displayed ships |
| SearchScreen.SortSelected | app/src/main/java/com/example/starwars/screens/SearchScreen.kt:405-447 | an arrow's sort tests characters, then planets, then ships: the matching list is replaced by its stable sort in the direction with the rest of the screen kept, and an option matching none changes nothing |
| SearchScreen.SortSelectedIdempotent | app/src/main/java/com/example/starwars/screens/SearchScreen.kt:405-447 | pressing the same arrow twice leaves the screen as pressing it once |
| SearchScreen.SelectKey | app/src/main/java/com/example/starwars/screens/SearchScreen.kt:363-403 | the Name / Year buttons only record the key; no list is reordered |
| SearchScreen.SelectDirection | app/src/main/java/com/example/starwars/screens/SearchScreen.kt:405-447 | an arrow records the direction and, when the key is Name, sorts the list of the selected category in that direction; with Year selected nothing is reordered |
| SearchScreen.Refill | app/src/main/java/com/example/starwars/screens/SearchScreen.kt:261-264 | clear-then-addAll on a null list does nothing; otherwise the list becomes the search result, or empty when the result is null |
| SearchScreen.QueryChanged | app/src/main/java/com/example/starwars/screens/SearchScreen.kt:256-297 | typing replaces the selected category's list with the search result, sorted when the key is Name; other categories, the key, the direction and the connection flag are kept; an unknown option changes nothing |
| SearchScreen.QueryShowsExactlyTheMatches | app/src/main/java/com/example/starwars/screens/SearchScreen.kt:256-270 | after typing, every shown character's name contains the query, and each source character that matches is shown exactly as often as it occurs in the source |
| SearchScreen.ConnectGate | app/src/main/java/com/example/starwars/screens/SearchScreen.kt:93-102 | the first Available status flips isConnected and fetches exactly the selected category (characters, ships, planets in that order of test); a null or Unavailable status or an already connected screen fetches nothing; only isConnected changes |
| SearchScreen.GateFiresAtMostOnce | app/src/main/java/com/example/starwars/screens/SearchScreen.kt:93-102 | over any sequence of status changes the screen fetches at most once, and never once already connected |
| BottomSheet.IndexOf | app/src/main/java/com/example/starwars/components/BottomSheetContent.kt:201 | the index `remove` deletes at is the first occurrence of the option |
| BottomSheet.RemoveFirst | app/src/main/java/com/example/starwars/components/BottomSheetContent.kt:201 | `MutableList.remove` deletes the first occurrence of the option and keeps the rest in order when present, and changes nothing otherwise |
| BottomSheet.RemoveFirstOfAppended | app/src/main/java/com/example/starwars/components/BottomSheetContent.kt:198-201 | removing an option just appended to a list that lacked it restores the list |
| BottomSheet.Toggle | app/src/main/java/com/example/starwars/components/BottomSheetContent.kt:194-209 | a click flips the button's selection; in the species group it appends the option to, or removes its first occurrence from, the species selection only, in the gender group from the gender selection only, in any other group the selections stay |
| BottomSheet.ToggleTwiceRestores | app/src/main/java/com/example/starwars/components/BottomSheetContent.kt:194-209 | selecting an unselected option and deselecting it restores both selections |
| BottomSheet.Resorted | app/src/main/java/com/example/starwars/components/BottomSheetContent.kt:129 | the closing `sortCharacterWhenSearch` leaves a null displayed list null and applies the re-sort to any other |
| BottomSheet.Reset | app/src/main/java/com/example/starwars/components/BottomSheetContent.kt:121-130 | reset empties both selections, empties the view model's filtered list when there is a view model, and shows the saved list after the closing re-sort (nothing when nothing is saved) |
| BottomSheet.Refill | app/src/main/java/com/example/starwars/components/BottomSheetContent.kt:271-272 | clear-then-addAll on a null displayed list does nothing, otherwise the list becomes the given items |
| BottomSheet.Apply | app/src/main/java/com/example/starwars/components/BottomSheetContent.kt:258-285 | without a view model nothing changes; otherwise a non-empty filter result becomes both the displayed list and the view model's filtered list, and an empty or null result clears the filtered list and shows the saved list (empty if null); the displayed list then gets the closing re-sort; selections are kept |
| BottomSheet.NothingSelectedWhenEmpty | app/src/main/java/com/example/starwars/components/BottomSheetContent.kt:262-276 | when the apply falls back, no saved character satisfies the selection |
| BottomSheet.ApplyIgnoresDisplayed | app/src/main/java/com/example/starwars/components/BottomSheetContent.kt:258-285 | the outcome of applying does not depend on what was displayed before |
| BottomSheet.ApplyAfterReset | app/src/main/java/com/example/starwars/components/BottomSheetContent.kt:121-130 | applying right after a reset shows the whole saved list after the re-sort, keeps the empty selections, and stores the saved list as the filter result (an empty one when nothing is saved) |
| DetailsScreen.CheckIfIsConnected | app/src/main/java/com/example/starwars/screens/DetailsScreen.kt:359-392 | as written: the first Available status flips isConnected and requests the selected category only if its details are missing, crashing exactly when the id does not parse; an Unavailable status before connection sets isError and "No internet connection" but leaves isLoading alone; a missing view model requests nothing |
| DetailsScreen.OfflineAtStartShowsSpinner | app/src/main/java/com/example/starwars/screens/DetailsScreen.kt:389-392 | on a fresh view model an Unavailable status still renders the spinner, not the error text |
| DetailsScreen.CheckIfIsConnectedShowingError | app/src/main/java/com/example/starwars/screens/DetailsScreen.kt:389-392 | corrected: the offline branch also clears isLoading so the screen shows "No internet connection"; requests and the connection flag are as written |
| DetailsScreen.RenderDetails | app/src/main/java/com/example/starwars/screens/DetailsScreen.kt:60-117 | without a view model the flags read null and nothing is shown; otherwise the view model's flags decide by the spinner / error / content priority |
| DetailsScreen.ContentFor | app/src/main/java/com/example/starwars/screens/DetailsScreen.kt:135-147 | the content shown is the character, planet or ship page exactly for the literal option "Characters", "Planets", "Ships" |
| DetailsScreen.ContentMatchesRequest | app/src/main/java/com/example/starwars/screens/DetailsScreen.kt:135-147 | with the app's own labels the category fetched and the page shown agree |
| DetailsScreen.PrintedIdNeverCrashes | app/src/main/java/com/example/starwars/screens/DetailsScreen.kt:373-385 | an id printed from a number within Int range never makes `toInt()` throw |
| DetailsScreen.EmptyIdCrashes | app/src/main/java/com/example/starwars/screens/DetailsScreen.kt:368-373 | the empty id that a URL ending in "/" yields makes `toInt()` throw once the screen first reads Available with the character missing |
| DetailsScreen.OnlineCharacterShowsContent | app/src/main/java/com/example/starwars/screens/DetailsScreen.kt:368-375 | online, with a parsable id and a delivered character, a fresh details screen ends up showing the content |
| ListResults.Split | app/src/main/java/com/example/starwars/components/ListResults.kt:76 | `split("/")` always yields at least one piece |
| ListResults.SplitPiecesHaveNoSlash | app/src/main/java/com/example/starwars/components/ListResults.kt:76 | no piece of a split contains a slash |
| ListResults.JoinSplit | app/src/main/java/com/example/starwars/components/ListResults.kt:76 | joining the pieces of a split with "/" gives the string back |
| ListResults.SplitJoin | app/src/main/java/com/example/starwars/components/ListResults.kt:90 | splitting a route built from slash-free parts gives the parts back |
| ListResults.SplitJoinThree | app/src/main/java/com/example/starwars/components/ListResults.kt:211 | a three-part route of slash-free parts splits back into them |
| ListResults.SplitJoinFour | app/src/main/java/com/example/starwars/components/ListResults.kt:90 | a four-part route of slash-free parts splits back into them |
| ListResults.SplitNoSlash | app/src/main/java/com/example/starwars/components/ListResults.kt:76 | a string without a slash splits into itself |
| ListResults.JoinCons | app/src/main/java/com/example/starwars/components/ListResults.kt:90 | a route is its first part, a slash and the rest of the route |
| ListResults.JoinThree | app/src/main/java/com/example/starwars/components/ListResults.kt:211 | the three-part route "a/b/c" is its parts separated by slashes |
| ListResults.JoinFour | app/src/main/java/com/example/starwars/components/ListResults.kt:90 | the four-part route "a/b/c/d" is its parts separated by slashes |
| ListResults.UrlIdAsWritten | app/src/main/java/com/example/starwars/components/ListResults.kt:76 | as written: `split("/").last()` is the longest slash-free suffix of the URL |
| ListResults.LastPieceIsSuffix | app/src/main/java/com/example/starwars/components/ListResults.kt:76 | the last part of a joined route is a suffix preceded by a slash when there are several parts |
| ListResults.TrailingSlashGivesEmptyId | app/src/main/java/com/example/starwars/components/ListResults.kt:74-76 | any URL ending in "/" yields the empty id |
| ListResults.UrlIdAsWrittenLosesId | app/src/main/java/com/example/starwars/components/ListResults.kt:74-76 | "people/1/" yields "" as written and "1" corrected |
| ListResults.TrimSlashes | app/src/main/java/com/example/starwars/components/ListResults.kt:74 | trailing slashes are dropped and nothing else |
| ListResults.UrlId | app/src/main/java/com/example/starwars/components/ListResults.kt:74-76 | corrected: the id is slash-free, and for a URL not ending in "/" it agrees with the code |
| ListResults.UrlIdOfIdUrl | app/src/main/java/com/example/starwars/components/ListResults.kt:74-76 | for a URL ".../id/" or ".../id" the corrected id is exactly id |
| ListResults.DetailsRoute | app/src/main/java/com/example/starwars/components/ListResults.kt:76-90 | as written: the details route is "details", the option, the `split("/").last()` id and the name, separated by slashes |
| ListResults.DetailsRouteParses | app/src/main/java/com/example/starwars/components/ListResults.kt:76-90 | with slash-free option and name the route splits back into its four parts, so the details screen receives exactly the id segment the row computed |
| ListResults.TrailingSlashRouteHasEmptyId | app/src/main/java/com/example/starwars/components/ListResults.kt:74-90 | as written, for a URL ending in "/" the details screen receives an empty id segment |
| ListResults.DetailsRouteFixed | app/src/main/java/com/example/starwars/components/ListResults.kt:74-90 | corrected: the same route carrying the corrected id |
| ListResults.DetailsRouteFixedCarriesId | app/src/main/java/com/example/starwars/components/ListResults.kt:74-90 | corrected: for a URL ".../id/" the corrected route delivers id to the details screen |
| ListResults.CompareRoute | app/src/main/java/com/example/starwars/components/ListResults.kt:206-211 | as written: a name click navigates only when the row is checked, to "compareCharacters/itemId/id" with "null" for a missing itemId and the `split("/").last()` id |
| ListResults.CompareRouteParses | app/src/main/java/com/example/starwars/components/ListResults.kt:206-211 | the compare route splits back into its three parts, the last being the id segment the row computed |
| ListResults.RowKey | app/src/main/java/com/example/starwars/components/ListResults.kt:162-163 | a row's key is its character's URL, or its index printed when the row has no character |
| ListResults.Select | app/src/main/java/com/example/starwars/components/ListResults.kt:175-181 | after a click every other known key is unchecked and the clicked key holds the new value; at most one key is checked |
| ListResults.ClickRow | app/src/main/java/com/example/starwars/components/ListResults.kt:173-182 | a row click toggles that row and unchecks every other row |
| ListResults.CheckedChange | app/src/main/java/com/example/starwars/components/ListResults.kt:188-197 | a checkbox change sets that row to the new value and unchecks every other row |
| ListResults.ClickTwice | app/src/main/java/com/example/starwars/components/ListResults.kt:173-182 | clicking the same row twice restores its checked state |
| ListResults.ReplayKeepsSingleSelection | app/src/main/java/com/example/starwars/components/ListResults.kt:153-197 | over any sequence of clicks and checkbox changes at most one row is checked |
| ScreenSize.Wrap | app/src/main/java/com/example/starwars/utils/size/Size.kt:75 | Int multiplication wraps: the result is a 32-bit value congruent to the exact product modulo 2^32, so in-range values are left alone |
| ScreenSize.Saturate | app/src/main/java/com/example/starwars/utils/size/Size.kt:72 | Double-to-Int conversion clamps: above Int.MAX_VALUE gives Int.MAX_VALUE, below Int.MIN_VALUE gives Int.MIN_VALUE, in-range values are left alone |
| ScreenSize.CustomWidth | app/src/main/java/com/example/starwars/utils/size/Size.kt:63-77 | below 600 the base size; from 600 below 840 one and a half times it rounded toward zero, clamped at Int.MAX_VALUE; from 840 twice it when that fits; always a 32-bit value |
| ScreenSize.WidthMonotone | app/src/main/java/com/example/starwars/utils/size/Size.kt:63-77 | for a base size below 2^30 a wider screen never gets a smaller width |
| ScreenSize.WidthWrapsForHugeBase | app/src/main/java/com/example/starwars/utils/size/Size.kt:75 | a base size of 2^30 doubles to Int.MIN_VALUE on a wide screen while the middle band stays positive |
| ScreenSize.CustomHeight | app/src/main/java/com/example/starwars/utils/size/Size.kt:100-137 | between 950 and 1400 half the base size in either orientation; portrait below 950 and landscape from 1400 the base size; the other two bands a fifth of it |
| ScreenSize.HeightOrientationsMirror | app/src/main/java/com/example/starwars/utils/size/Size.kt:100-137 | portrait on a short screen equals landscape on a tall one and the other way round; the middle band does not depend on orientation |

## Left out

- The network connectivity observer (`NetworkConnectivityObserver`) and the `StateFlow` it feeds are not modelled. Each operation takes the current `Status` as a parameter, and a missing status (`null` before the first collection) is `None`.
- Retrofit, Koin and the repository are not modelled. A call's outcome is a `Reply` parameter.
- Coroutines are not modelled: `StateFlow` conflation, and observers that keep collecting after a later call, are both absent. Every observer reacts once to each state assigned. With several live collectors the compare view model could store one character in both slots; that path is not represented.
- List aliasing is not modelled. The reset's `allCharacters = allCharactersSaved` makes the displayed list the saved list, so a later `clear()` would empty both. The model keeps values, not references.
- The per-recomposition reassignment of the displayed lists from the view model (SearchScreen.kt:109-111) is not modelled. The screen handlers act on the lists they are given.
- Composable layout, theming, images, fonts, navigation and orientation locking are not modelled. In particular, whether the navigation library matches a route with an empty segment against its template is not modelled.
- Text.Le: compares strings by Unicode code point, while Kotlin's `String.compareTo` compares UTF-16 code units; the two orders differ between characters above U+FFFF and those from U+E000 to U+FFFF.
- BottomSheet.Reset: `Sorting.sortCharacterWhenSearch` has no definition in the source, so the contract says only that the displayed list ends as `resort` of the saved list, for an arbitrary `resort`.
- BottomSheet.Apply: for the same reason the displayed list is stated only as `resort` of the filter result or of the saved list, for an arbitrary `resort`.
- Case folding and digits are ASCII only. `lowercase()` and `toInt()` are modelled for ASCII letters and digits; Unicode folding and non-ASCII digits are left out.
- ScreenSize.CustomHeight: the 0.2 factor is left as `FifthOf(baseSize)`, because `(baseSize * 0.2).toInt()` rounds a binary double that is not exactly one fifth.
- ScreenSize.CustomWidth: for a negative base size the middle band is stated only through its range, because the Double product's rounding toward zero is not restated.
- The sort key and direction are enums (`SortKey`, `Direction`). The source holds them in `Int` states that the buttons only ever set to 0 or 1.
- The bottom sheet's per-button `isSelected` memory is a parameter of `BottomSheet.Toggle`. It is remembered by the composable and not stored anywhere the model can reach.
- Year sorting (`sortOptionNameSelected == 1`) reorders nothing in the source, and the model keeps it that way.

## Findings

| source | as written | input that shows it | evidently intended | confidence | as-written member | corrected member |
|---|---|---|---|---|---|---|
| app/src/main/java/com/example/starwars/networking/viewModel/CompareCharactersViewModel.kt:77-80 | the offline branch returns before the `try … finally` that launches the observer, so the flags are never updated from the error state | a fresh compare view model and `getCharacter(id)` while Unavailable: isLoading stays true, isError false | the "No Internet Connection" error is shown like every other failure | not executed | CompareViewModel.OfflineFirstCallKeepsLoading | CompareViewModel.GetCharacterObserved |
| app/src/main/java/com/example/starwars/screens/DetailsScreen.kt:389-392 | offline before connecting, it sets isError and the message but not isLoading; the init observers left isLoading true and the screen tests isLoading first | a fresh details view model with status Unavailable: the spinner shows, never "No internet connection" | the offline message is shown | not executed | DetailsScreen.OfflineAtStartShowsSpinner | DetailsScreen.CheckIfIsConnectedShowingError |
| app/src/main/java/com/example/starwars/components/ListResults.kt:74-76 | `url.split("/").last()` is the text after the final slash, which is empty for a URL ending in "/" as the comment says they do | url "people/1/": the id is "", the details route is "details/<option>//<name>", and navigation fails or, if the route template `details/{optionSelected}/{itemId}/{name}` accepts the empty segment, the details screen's `toInt()` throws | the id is the last non-empty path segment, "1" | not executed | ListResults.UrlIdAsWrittenLosesId | ListResults.UrlId |

=== FILE: bottom_sheet.dfy ===
/**
 * `BottomSheetContent`: the species and gender option buttons, the reset
 * action and the apply (search) button of the character filter sheet.
 *
 * The displayed list is the screen's nullable character list; the view
 * model is nullable too, and `filtered` stands for its `filteredCharacters`
 * when it is present. Both actions end with
 * `Sorting.sortCharacterWhenSearch`, which re-applies the screen's selected
 * sort to the displayed list; its definition is not part of the source, so
 * it is the parameter `resort`, applied to the displayed list last.
 */
module BottomSheet {
  import opened Wrappers
  import opened Seqs
  import opened Entities
  import opened Filter

  /** The fixed option lists of the two groups. */
  const SpeciesOptions := ["Gungan", "Droid", "Wookie", "Rodian", "Zabrak", "Mirialan"]
  const GenderOptions := ["Male", "Female"]

  /** The two selection lists, in click order. */
  datatype Selection = Selection(species: seq<string>, gender: seq<string>)

  /** The group titles the option buttons compare against (string resources). */
  datatype Groups = Groups(specie: string, gender: string)

  /** The first position of `x` in `s`. */
  function IndexOf(s: seq<string>, x: string): (i: nat)
    requires x in s
    ensures i < |s| && s[i] == x && x !in s[..i]
  {
    if s[0] == x then 0
    else
      assert s == [s[0]] + s[1..];
      var j := IndexOf(s[1..], x);
      assert s[..j + 1] == [s[0]] + s[1..][..j];
      j + 1
  }

  /** `MutableList.remove(x)`: find the first occurrence of `x` and cut it
      out; a list without `x` is left alone. */
  function RemoveFirst(s: seq<string>, x: string): (r: seq<string>)
    ensures multiset(r) == multiset(s) - multiset{x}
    ensures x !in s ==> r == s
    ensures x in s ==> exists i :: 0 <= i < |s| && s[i] == x && x !in s[..i] && r == s[..i] + s[i + 1..]
    ensures |r| == if x in s then |s| - 1 else |s|
  {
    if x in s then
      var i := IndexOf(s, x);
      assert s == s[..i] + [s[i]] + s[i + 1..];
      s[..i] + s[i + 1..]
    else
      assert multiset(s)[x] == 0;
      s
  }

  /** Adding then removing the same option gives the list back: the
      appended copy is the first one. */
  lemma RemoveFirstOfAppended(s: seq<string>, x: string)
    requires x !in s
    ensures RemoveFirst(s + [x], x) == s
  {
    var t := s + [x];
    var i := IndexOf(t, x);
    if i < |s| {
      assert false;
    }
    assert t[..|s|] == s;
  }

  /** A click on option `option` of group `group`: the button's own
      `isSelected` flips, then the option is appended to or removed from that
      group's list. A title matching neither group changes no list. */
  function Toggle(sel: Selection, isSelected: bool, groups: Groups, group: string, option: string): (r: (Selection, bool))
    ensures r.1 == !isSelected
    ensures group == groups.specie ==> r.0.gender == sel.gender
    ensures group == groups.specie && r.1 ==> r.0.species == sel.species + [option]
    ensures group == groups.specie && !r.1 ==> r.0.species == RemoveFirst(sel.species, option)
    ensures group != groups.specie && group == groups.gender ==> r.0.species == sel.species
    ensures group != groups.specie && group == groups.gender && r.1 ==> r.0.gender == sel.gender + [option]
    ensures group != groups.specie && group == groups.gender && !r.1 ==>
      r.0.gender == RemoveFirst(sel.gender, option)
    ensures group != groups.specie && group != groups.gender ==> r.0 == sel
  {
    var selected := !isSelected;
    if group == groups.specie then
      (sel.(species := if selected then sel.species + [option] else RemoveFirst(sel.species, option)), selected)
    else if group == groups.gender then
      (sel.(gender := if selected then sel.gender + [option] else RemoveFirst(sel.gender, option)), selected)
    else (sel, selected)
  }

  /** Selecting an option that is not selected and clicking it again restores
      both lists exactly. */
  lemma ToggleTwiceRestores(sel: Selection, groups: Groups, group: string, option: string)
    requires option !in sel.species && option !in sel.gender
    ensures var once := Toggle(sel, false, groups, group, option);
      Toggle(once.0, once.1, groups, group, option) == (sel, false)
  {
    RemoveFirstOfAppended(sel.species, option);
    RemoveFirstOfAppended(sel.gender, option);
  }

  /** The state the sheet's actions change. */
  datatype Sheet = Sheet(selection: Selection, filtered: Option<seq<Character>>, displayed: Option<seq<Character>>)

  /** `Sorting.sortCharacterWhenSearch` on the nullable displayed list: a
      null list stays null. */
  function Resorted(list: Option<seq<Character>>, resort: seq<Character> -> seq<Character>): (r: Option<seq<Character>>)
    ensures r.None? <==> list.None?
    ensures r.Some? ==> r.value == resort(list.value)
  {
    if list.Some? then Some(resort(list.value)) else None
  }

  /** The reset action: clear both selections and the view model's filter
      result, show the saved full list again and re-sort it. */
  function Reset(sheet: Sheet, saved: Option<seq<Character>>, resort: seq<Character> -> seq<Character>): (r: Sheet)
    ensures r.selection == Selection([], [])
    ensures r.filtered.Some? <==> sheet.filtered.Some?
    ensures r.filtered.Some? ==> r.filtered.value == []
    ensures r.displayed.None? <==> saved.None?
    ensures r.displayed.Some? ==> r.displayed.value == resort(saved.value)
  {
    Sheet(Selection([], []), if sheet.filtered.Some? then Some([]) else None, Resorted(saved, resort))
  }

  /** `list?.clear(); list?.addAll(items)`: a null list stays null. */
  function Refill(list: Option<seq<Character>>, items: seq<Character>): (r: Option<seq<Character>>)
    ensures r.None? <==> list.None?
    ensures r.Some? ==> r.value == items
  {
    if list.Some? then Some(items) else None
  }

  /** The apply button. Without a view model nothing changes. Otherwise the
      saved full list is filtered by the current selection; a non-empty
      result becomes both the displayed list and the view model's filter
      result, and an empty or null one clears the filter result and shows the
      saved list (or nothing) instead; the displayed list is then re-sorted. */
  function Apply(sheet: Sheet, saved: Option<seq<Character>>, resort: seq<Character> -> seq<Character>): (r: Sheet)
    ensures r.selection == sheet.selection
    ensures sheet.filtered.None? ==> r == sheet
    ensures r.displayed.None? <==> sheet.displayed.None?
    ensures sheet.filtered.Some? ==> r.filtered.Some?
    ensures sheet.filtered.Some? && |r.filtered.value| > 0 ==>
      && saved.Some?
      && IsFilterOf(r.filtered.value, saved.value, c => Selected(Some(sheet.selection.species), Some(sheet.selection.gender), c))
      && (r.displayed.Some? ==> r.displayed.value == resort(r.filtered.value))
    ensures sheet.filtered.Some? && |r.filtered.value| == 0 ==>
      && (saved.Some? ==> forall k :: 0 <= k < |saved.value| ==>
            !Selected(Some(sheet.selection.species), Some(sheet.selection.gender), saved.value[k]))
      && (r.displayed.Some? ==> r.displayed.value == resort(saved.GetOr([])))
  {
    if sheet.filtered.None? then sheet
    else
      var result := FilterCharacters(Some(sheet.selection.species), Some(sheet.selection.gender), saved);
      if result.Some? && |result.value| > 0 then
        sheet.(filtered := Some(result.value), displayed := Resorted(Refill(sheet.displayed, result.value), resort))
      else
        NothingSelectedWhenEmpty(sheet.selection, saved, result);
        sheet.(filtered := Some([]), displayed := Resorted(Refill(sheet.displayed, saved.GetOr([])), resort))
  }

  /** An empty filter result means no saved character passes the filter. */
  lemma NothingSelectedWhenEmpty(sel: Selection, saved: Option<seq<Character>>, result: Option<seq<Character>>)
    requires result == FilterCharacters(Some(sel.species), Some(sel.gender), saved)
    requires !(result.Some? && |result.value| > 0)
    ensures saved.Some? ==> forall k :: 0 <= k < |saved.value| ==> !Selected(Some(sel.species), Some(sel.gender), saved.value[k])
  {
    if saved.Some? {
      forall k | 0 <= k < |saved.value|
        ensures !Selected(Some(sel.species), Some(sel.gender), saved.value[k])
      {
        assert saved.value[k] in multiset(saved.value);
      }
    }
  }

  /** The filter runs on the saved list, never on what is displayed: two
      sheets that differ only in their displayed list end with the same
      filter result, and show it wherever they show anything. */
  lemma ApplyIgnoresDisplayed(sel: Selection, filtered: Option<seq<Character>>, d1: Option<seq<Character>>,
                              d2: Option<seq<Character>>, saved: Option<seq<Character>>,
                              resort: seq<Character> -> seq<Character>)
    requires d1.Some? && d2.Some?
    ensures Apply(Sheet(sel, filtered, d1), saved, resort).filtered == Apply(Sheet(sel, filtered, d2), saved, resort).filtered
    ensures filtered.Some? ==>
      Apply(Sheet(sel, filtered, d1), saved, resort).displayed == Apply(Sheet(sel, filtered, d2), saved, resort).displayed
  {
  }

  /** After a reset the apply button shows the whole saved list again,
      re-sorted, and leaves the filter result empty when there is nothing
      saved. */
  lemma ApplyAfterReset(sheet: Sheet, saved: Option<seq<Character>>, resort: seq<Character> -> seq<Character>)
    requires sheet.filtered.Some? && saved.Some?
    ensures var r := Apply(Reset(sheet, saved, resort), saved, resort);
      r.displayed == Some(resort(saved.value)) && r.selection == Selection([], [])
      && r.filtered == (if |saved.value| > 0 then saved else Some([]))
  {
    assert FilterCharacters(Some([]), Some([]), saved) == saved;
  }
}

=== FILE: compare_view_model.dfy ===
/**
 * `CompareCharactersViewModel`: two character fetches fill two comparison
 * slots, the first empty slot winning. The character state type is the
 * details view model's.
 *
 * The observer is a collector launched from the online path's `finally`
 * block; `observing` records whether one is live. The offline path returns
 * before that block, so on a view model that has not yet been online nothing
 * observes the offline error.
 */
module CompareViewModel {
  import opened Wrappers
  import opened Entities
  import opened Remote
  import DV = DetailsViewModel

  datatype Vm = Vm(
    state: DV.Fetch<Character>,
    isLoading: bool, isSuccess: bool, isError: bool, errorMessage: string,
    slot1: Option<Character>, slot2: Option<Character>,
    observing: bool)

  const Initial := Vm(DV.Loading, false, false, false, "", None, None, false)

  /** The id used when the screen passes none. */
  const DefaultId := 1

  /** The result of one `getCharacter` call: the new state and the id the
      repository was asked for, if it was called. */
  datatype Step = Step(vm: Vm, request: Option<int>)

  /** `observeCharacter`'s reaction to the current state, when a collector is
      live. A Success fills slot 1 if it is empty and otherwise overwrites
      slot 2; `isSuccess` is only ever raised here, once both slots hold a
      character. */
  function Observe(vm: Vm): Vm {
    if !vm.observing then vm
    else if vm.state.Success? then
      var filled := if vm.slot1.None? then vm.(slot1 := Some(vm.state.item)) else vm.(slot2 := Some(vm.state.item));
      filled.(errorMessage := "",
              isSuccess := if filled.slot1.Some? && filled.slot2.Some? then true else vm.isSuccess,
              isLoading := false, isError := false)
    else if vm.state.Error? then
      vm.(errorMessage := vm.state.message, isSuccess := false, isLoading := false, isError := true)
    else
      vm.(errorMessage := "", isSuccess := false, isLoading := true, isError := false)
  }

  /** The state and flags every call sets before the connectivity gate. */
  function Begin(vm: Vm): Vm {
    Observe(vm.(state := DV.Loading)).(isLoading := true, isError := false, isSuccess := false)
  }

  /** `getCharacter(id)` as written: the observer is launched only on the
      online path. */
  function GetCharacter(vm: Vm, id: Option<int>, net: Status, reply: Reply<Character>): (r: Step)
    ensures r.request.Some? <==> net == Available
    ensures r.request.Some? ==> r.request.value == id.GetOr(DefaultId)
    ensures net == Unavailable ==> r.vm.state == DV.Error(NoInternet) && r.vm.observing == vm.observing
    ensures net == Available ==> r.vm.observing && !r.vm.state.Loading?
    ensures net == Available && reply.Response? && !Delivers(reply) ==>
      r.vm.state == DV.Error(if reply.message != "" then reply.message else DV.CharacterFailure)
    ensures net == Available && reply.Thrown? ==>
      r.vm.state == DV.Error(reply.exceptionMessage.GetOr(DV.UnknownFailure))
    // nothing observes: the flags keep what the call set by hand
    ensures !r.vm.observing ==>
      r.vm.isLoading && !r.vm.isError && !r.vm.isSuccess && r.vm.slot1 == vm.slot1 && r.vm.slot2 == vm.slot2
    ensures r.vm.observing && r.vm.state.Error? ==>
      && r.vm.isError && !r.vm.isLoading && !r.vm.isSuccess && r.vm.errorMessage == r.vm.state.message
      && r.vm.slot1 == vm.slot1 && r.vm.slot2 == vm.slot2
    ensures net == Available && Delivers(reply) ==>
      && r.vm.state == DV.Success(reply.body.value)
      && (vm.slot1.None? ==> r.vm.slot1 == reply.body && r.vm.slot2 == vm.slot2)
      && (vm.slot1.Some? ==> r.vm.slot1 == vm.slot1 && r.vm.slot2 == reply.body)
      && !r.vm.isLoading && !r.vm.isError && r.vm.errorMessage == ""
    // slot 1, once filled, is never changed
    ensures vm.slot1.Some? ==> r.vm.slot1 == vm.slot1
    ensures r.vm.isSuccess <==> r.vm.state.Success? && r.vm.slot1.Some? && r.vm.slot2.Some?
  {
    var started := Begin(vm);
    if net == Unavailable then
      Step(Observe(started.(state := DV.Error(NoInternet))), None)
    else
      Step(Observe(started.(state := DV.Outcome(net, reply, DV.CharacterFailure), observing := true)), Some(id.GetOr(DefaultId)))
  }

  /** The first call made offline leaves the spinner on and no error raised,
      although the state holds "No Internet Connection". */
  lemma OfflineFirstCallKeepsLoading(id: Option<int>, reply: Reply<Character>)
    ensures var r := GetCharacter(Initial, id, Unavailable, reply).vm;
      r.state == DV.Error(NoInternet) && r.isLoading && !r.isError && r.errorMessage == ""
  {
  }

  /** `getCharacter(id)` with the observer launched on every path, as the
      offline branch evidently intends: the offline error then reaches the
      flags whether or not the view model has been online before. */
  function GetCharacterObserved(vm: Vm, id: Option<int>, net: Status, reply: Reply<Character>): (r: Step)
    ensures r.request.Some? <==> net == Available
    ensures r.request.Some? ==> r.request.value == id.GetOr(DefaultId)
    ensures r.vm.observing && !r.vm.isLoading && !r.vm.state.Loading?
    ensures r.vm.isError <==> r.vm.state.Error?
    ensures r.vm.state.Error? ==> r.vm.errorMessage == r.vm.state.message
    ensures net == Unavailable ==> r.vm.state == DV.Error(NoInternet) && r.vm.errorMessage == NoInternet
    ensures vm.slot1.Some? ==> r.vm.slot1 == vm.slot1
    ensures r.vm.isSuccess <==> r.vm.state.Success? && r.vm.slot1.Some? && r.vm.slot2.Some?
  {
    var started := Begin(vm);
    var settled := if net == Unavailable then DV.Error(NoInternet) else DV.Outcome(net, reply, DV.CharacterFailure);
    Step(Observe(started.(state := settled, observing := true)), if net == Available then Some(id.GetOr(DefaultId)) else None)
  }

  /** The correction changes nothing online, nor offline once a collector is live. */
  lemma ObservedAgreesWhenObserving(vm: Vm, id: Option<int>, net: Status, reply: Reply<Character>)
    requires net == Available || vm.observing
    ensures GetCharacterObserved(vm, id, net, reply) == GetCharacter(vm, id, net, reply)
  {
  }

  /** Two successful online fetches from a new view model fill the slots in
      call order and raise `isSuccess`. */
  lemma TwoFetchesFillBothSlots(id1: Option<int>, id2: Option<int>, r1: Reply<Character>, r2: Reply<Character>)
    requires Delivers(r1) && Delivers(r2)
    ensures var first := GetCharacter(Initial, id1, Available, r1).vm;
      var second := GetCharacter(first, id2, Available, r2).vm;
      && !first.isSuccess && first.slot1 == r1.body && first.slot2.None?
      && second.isSuccess && second.slot1 == r1.body && second.slot2 == r2.body
  {
  }

  /** One call to the view model. */
  datatype Call = Call(id: Option<int>, net: Status, reply: Reply<Character>)

  /** The calls in order, as written: an offline call observes only once a
      collector is live. */
  function Run(vm: Vm, calls: seq<Call>): Vm
    decreases |calls|
  {
    if |calls| == 0 then vm
    else Run(GetCharacter(vm, calls[0].id, calls[0].net, calls[0].reply).vm, calls[1..])
  }

  /** Over any run, slot 1 keeps the first character stored ... */
  lemma {:induction false} RunKeepsSlot1(vm: Vm, calls: seq<Call>)
    requires vm.slot1.Some?
    ensures Run(vm, calls).slot1 == vm.slot1
    decreases |calls|
  {
    if |calls| > 0 {
      var next := GetCharacter(vm, calls[0].id, calls[0].net, calls[0].reply).vm;
      RunKeepsSlot1(next, calls[1..]);
    }
  }

  /** ... and `isSuccess` is raised only while both slots hold a character,
      whenever some call has been made or the starting state already agrees. */
  lemma {:induction false} RunSuccessNeedsBothSlots(vm: Vm, calls: seq<Call>)
    requires |calls| > 0 || (vm.isSuccess ==> vm.slot1.Some? && vm.slot2.Some?)
    ensures var r := Run(vm, calls); r.isSuccess ==> r.slot1.Some? && r.slot2.Some?
    decreases |calls|
  {
    if |calls| > 0 {
      var next := GetCharacter(vm, calls[0].id, calls[0].net, calls[0].reply).vm;
      RunSuccessNeedsBothSlots(next, calls[1..]);
    }
  }

  /** Offline calls on a view model that has never been online leave the
      spinner on and no error raised, however many are made. */
  lemma {:induction false} OfflineRunKeepsLoading(vm: Vm, calls: seq<Call>)
    requires !vm.observing && |calls| > 0
    requires forall k :: 0 <= k < |calls| ==> calls[k].net == Unavailable
    ensures var r := Run(vm, calls); r.isLoading && !r.isError && r.state == DV.Error(NoInternet)
    decreases |calls|
  {
    var next := GetCharacter(vm, calls[0].id, calls[0].net, calls[0].reply).vm;
    if |calls| > 1 {
      assert forall k :: 0 <= k < |calls[1..]| ==> calls[1..][k].net == calls[k + 1].net;
      OfflineRunKeepsLoading(next, calls[1..]);
    }
  }

  /** A run from a new view model never shows success with an empty slot. */
  lemma RunFromInitial(calls: seq<Call>)
    ensures var r := Run(Initial, calls); r.isSuccess ==> r.slot1.Some? && r.slot2.Some?
  {
    RunSuccessNeedsBothSlots(Initial, calls);
  }
}

=== FILE: decimal.dfy ===
/**
 * Decimal text of integers: Kotlin's `Int.toString()` for non-negative
 * values and `String.toInt()` (Java's `Integer.parseInt`, radix 10) for the
 * ids carried in navigation routes. Only ASCII digits are accepted.
 */
module Decimal {
  import opened Wrappers

  const MinInt := -0x8000_0000
  const MaxInt := 0x7fff_ffff

  predicate IsDigit(c: char) {
    '0' <= c <= '9'
  }

  /** The sign `toInt()` accepts in front of the digits. */
  predicate IsSign(c: char) {
    c == '-' || c == '+'
  }

  predicate AllDigits(s: string) {
    forall i :: 0 <= i < |s| ==> IsDigit(s[i])
  }

  function DigitChar(d: nat): char
    requires d < 10
  {
    (('0' as int) + d) as char
  }

  function DigitValue(c: char): nat
    requires IsDigit(c)
  {
    (c as int) - ('0' as int)
  }

  /** The value of a run of digits, most significant first. */
  function DigitsValue(s: string): nat
    requires AllDigits(s)
    decreases |s|
  {
    if |s| == 0 then 0 else DigitsValue(s[..|s| - 1]) * 10 + DigitValue(s[|s| - 1])
  }

  /** `n.toString()` for a non-negative `n`: no sign and no leading zero. */
  function NatToString(n: nat): (r: string)
    ensures |r| > 0 && AllDigits(r)
    ensures |r| > 1 ==> r[0] != '0'
    decreases n
  {
    if n < 10 then [DigitChar(n)] else NatToString(n / 10) + [DigitChar(n % 10)]
  }

  /** Reading back what `NatToString` wrote gives the number again. */
  lemma {:induction false} NatToStringValue(n: nat)
    ensures DigitsValue(NatToString(n)) == n
    decreases n
  {
    if n >= 10 {
      var s := NatToString(n / 10);
      NatToStringValue(n / 10);
      assert (s + [DigitChar(n % 10)])[..|s|] == s;
    }
  }

  /** Two numbers with the same text are the same number. */
  lemma NatToStringInjective(m: nat, n: nat)
    requires NatToString(m) == NatToString(n)
    ensures m == n
  {
    NatToStringValue(m);
    NatToStringValue(n);
  }

  /** `s.toInt()`: an optional leading '-' or '+', then at least one digit,
      and a value within the 32-bit range; anything else throws
      `NumberFormatException`, modelled as `None`. */
  function ToInt(s: string): (r: Option<int>)
    ensures r.Some? ==> MinInt <= r.value <= MaxInt
    ensures |s| == 0 ==> r.None?
    ensures |s| == 1 && IsSign(s[0]) ==> r.None?
    ensures (exists i :: 0 <= i < |s| && !IsDigit(s[i]) && (i > 0 || !IsSign(s[i]))) ==> r.None?
    ensures r.Some? && AllDigits(s) ==> r.value == DigitsValue(s)
    ensures r.Some? && s[0] == '-' ==> r.value == 0 - DigitsValue(s[1..])
    ensures r.Some? && s[0] == '+' ==> r.value == DigitsValue(s[1..])
    ensures AllDigits(s) && |s| > 0 && DigitsValue(s) <= MaxInt ==> r == Some(DigitsValue(s))
    ensures |s| > 1 && s[0] == '-' && AllDigits(s[1..]) && DigitsValue(s[1..]) <= -MinInt ==>
      r == Some(0 - DigitsValue(s[1..]))
    ensures |s| > 1 && s[0] == '+' && AllDigits(s[1..]) && DigitsValue(s[1..]) <= MaxInt ==>
      r == Some(DigitsValue(s[1..]))
  {
    if |s| == 0 then None
    else
      var signed := IsSign(s[0]);
      var digits := if signed then s[1..] else s;
      if |digits| == 0 || !AllDigits(digits) then None
      else
        var v: int := if s[0] == '-' then 0 - DigitsValue(digits) else DigitsValue(digits);
        if MinInt <= v <= MaxInt then Some(v) else None
  }

  /** Every non-negative `Int` survives a trip through its text. */
  lemma ToIntOfNatToString(n: nat)
    ensures n <= MaxInt ==> ToInt(NatToString(n)) == Some(n)
  {
    NatToStringValue(n);
  }

  /** And so does every negative one, written with its minus sign. */
  lemma ToIntOfNegative(n: nat)
    requires 0 < n <= -MinInt
    ensures ToInt("-" + NatToString(n)) == Some(0 - n)
  {
    NatToStringValue(n);
    assert ("-" + NatToString(n))[1..] == NatToString(n);
  }

  /** One past the largest `Int` no longer parses. */
  lemma ToIntOverflows()
    ensures ToInt(NatToString(MaxInt + 1)) == None
  {
    NatToStringValue(MaxInt + 1);
  }

  /** Either sign in front of in-range digits parses. */
  lemma ToIntSigned()
    ensures ToInt("+5") == Some(5) && ToInt("-5") == Some(-5)
  {
    assert "+5"[1..] == "5" && "-5"[1..] == "5";
    assert DigitsValue("5") == 5 by { assert "5"[..0] == ""; }
  }

  /** A letter among the digits makes `toInt()` throw. */
  lemma ToIntRejectsLetter()
    ensures ToInt("1a") == None && ToInt("-") == None && ToInt("+") == None
  {
    assert !IsDigit("1a"[1]);
  }
}

=== FILE: details_screen.dfy ===
/**
 * `DetailsScreen`: `checkIfIsConnected`, which fetches the selected item
 * once when the network first reads Available (and only when its details
 * are not loaded yet) and raises an error while it reads Unavailable; the
 * render priority; and the dispatch of `DetailsScreenContent` on the option.
 *
 * The view model and its network status are nullable. The item id arrives
 * in the route as text and is parsed with `toInt()`, which throws on
 * malformed text; that outcome is `Crash`.
 */
module DetailsScreen {
  import opened Wrappers
  import opened Decimal
  import opened Entities
  import opened Remote
  import opened Render
  import DV = DetailsViewModel

  /** The error the screen itself raises while offline. Its capitalisation
      differs from the view model's `NoInternet`. */
  const NoConnection := "No internet connection"

  /** The repository call `checkIfIsConnected` asks the view model for. */
  datatype Request = NoRequest | FetchCharacter(id: int) | FetchPlanet(id: int) | FetchShip(id: int) | Crash

  datatype Connect = Connect(vm: Option<DV.Vm>, isConnected: bool, request: Request)

  /** The fetch of one kind, when its details are not loaded yet. A safe
      call on a null view model evaluates nothing, so it cannot crash. */
  function FetchIfMissing(vm: Option<DV.Vm>, missing: bool, itemId: string, fetch: int -> Request): Request {
    if vm.None? || !missing then NoRequest
    else if ToInt(itemId).None? then Crash
    else fetch(ToInt(itemId).value)
  }

  /** `checkIfIsConnected`, as written. */
  function CheckIfIsConnected(vm: Option<DV.Vm>, isConnected: bool, net: Option<Status>, labels: Labels,
                              option: string, itemId: string): (r: Connect)
    ensures r.isConnected <==> isConnected || net == Some(Available)
    ensures r.request != NoRequest ==> net == Some(Available) && !isConnected && vm.Some?
    ensures r.request.FetchCharacter? <==>
      && net == Some(Available) && !isConnected && vm.Some? && option == labels.characters
      && vm.value.characterDetails.None? && ToInt(itemId).Some?
    ensures r.request.FetchPlanet? <==>
      && net == Some(Available) && !isConnected && vm.Some? && option != labels.characters && option == labels.planets
      && vm.value.planetDetails.None? && ToInt(itemId).Some?
    ensures r.request.FetchShip? <==>
      && net == Some(Available) && !isConnected && vm.Some? && option != labels.characters
      && option != labels.planets && option == labels.ships
      && vm.value.vehicleDetails.None? && ToInt(itemId).Some?
    ensures r.request.Crash? ==> ToInt(itemId).None?
    ensures (r.request.FetchCharacter? || r.request.FetchPlanet? || r.request.FetchShip?) ==>
      Some(r.request.id) == ToInt(itemId)
    ensures net == Some(Unavailable) && !isConnected && vm.Some? ==>
      r.vm == Some(vm.value.(flags := vm.value.flags.(isError := true, errorMessage := NoConnection)))
    ensures !(net == Some(Unavailable) && !isConnected) ==> r.vm == vm
  {
    if net == Some(Available) && !isConnected then
      var request :=
        if option == labels.characters then
          FetchIfMissing(vm, vm.Some? && vm.value.characterDetails.None?, itemId, id => FetchCharacter(id))
        else if option == labels.planets then
          FetchIfMissing(vm, vm.Some? && vm.value.planetDetails.None?, itemId, id => FetchPlanet(id))
        else if option == labels.ships then
          FetchIfMissing(vm, vm.Some? && vm.value.vehicleDetails.None?, itemId, id => FetchShip(id))
        else NoRequest;
      Connect(vm, true, request)
    else if net == Some(Unavailable) && !isConnected then
      var raised := if vm.Some? then Some(vm.value.(flags := vm.value.flags.(isError := true, errorMessage := NoConnection))) else None;
      Connect(raised, isConnected, NoRequest)
    else Connect(vm, isConnected, NoRequest)
  }

  /** What the screen body shows for the current view model. */
  function RenderDetails(vm: Option<DV.Vm>): (r: View)
    ensures vm.None? ==> r == Blank
    ensures vm.Some? ==> r == Priority(Some(vm.value.flags.isLoading), Some(vm.value.flags.isError),
                                       Some(vm.value.flags.isSuccess), Some(vm.value.flags.errorMessage))
  {
    if vm.None? then Priority(None, None, None, None)
    else Priority(Some(vm.value.flags.isLoading), Some(vm.value.flags.isError),
                  Some(vm.value.flags.isSuccess), Some(vm.value.flags.errorMessage))
  }

  /** Opened offline, the screen keeps its spinner: the view model starts in
      Loading, and the error raised here sits behind the loading flag. */
  lemma OfflineAtStartShowsSpinner(labels: Labels, option: string, itemId: string)
    ensures var r := CheckIfIsConnected(Some(DV.Initial()), false, Some(Unavailable), labels, option, itemId);
      r.vm.value.flags.isError && RenderDetails(r.vm) == Spinner
  {
  }

  /** `checkIfIsConnected` as its offline branch evidently intends: the
      raised error also lowers `isLoading`, so it reaches the screen. */
  function CheckIfIsConnectedShowingError(vm: Option<DV.Vm>, isConnected: bool, net: Option<Status>, labels: Labels,
                                          option: string, itemId: string): (r: Connect)
    ensures net == Some(Unavailable) && !isConnected && vm.Some? ==>
      && r.vm.Some? && r.vm.value.flags.isError && !r.vm.value.flags.isLoading
      && RenderDetails(r.vm) == ErrorText(NoConnection)
    ensures !(net == Some(Unavailable) && !isConnected) ==>
      r == CheckIfIsConnected(vm, isConnected, net, labels, option, itemId)
    ensures r.request == CheckIfIsConnected(vm, isConnected, net, labels, option, itemId).request
    ensures r.isConnected == CheckIfIsConnected(vm, isConnected, net, labels, option, itemId).isConnected
  {
    var r := CheckIfIsConnected(vm, isConnected, net, labels, option, itemId);
    if net == Some(Unavailable) && !isConnected && r.vm.Some? then
      r.(vm := Some(r.vm.value.(flags := r.vm.value.flags.(isLoading := false))))
    else r
  }

  /** `DetailsScreenContent`: the page shown for the option, matched against
      the literal titles rather than the string resources. */
  function ContentFor(option: string): (r: Option<Kind>)
    ensures r == Some(Characters) <==> option == LiteralLabels.characters
    ensures r == Some(Planets) <==> option == LiteralLabels.planets
    ensures r == Some(Ships) <==> option == LiteralLabels.ships
  {
    if option == "Characters" then Some(Characters)
    else if option == "Planets" then Some(Planets)
    else if option == "Ships" then Some(Ships)
    else None
  }

  function RequestedKind(request: Request): Option<Kind> {
    match request
    case FetchCharacter(_) => Some(Characters)
    case FetchPlanet(_) => Some(Planets)
    case FetchShip(_) => Some(Ships)
    case _ => None
  }

  /** With the literal titles as resources, the page shown is the kind that
      was fetched. */
  lemma ContentMatchesRequest(vm: Option<DV.Vm>, net: Option<Status>, option: string, itemId: string)
    ensures var r := CheckIfIsConnected(vm, false, net, LiteralLabels, option, itemId);
      RequestedKind(r.request).Some? ==> RequestedKind(r.request) == ContentFor(option)
  {
  }

  /** A decimal id in the `Int` range never crashes the fetch. The list
      screen sends the last segment of the item's url, which is such a number
      only when the url does not end in '/'. */
  lemma PrintedIdNeverCrashes(vm: Option<DV.Vm>, net: Option<Status>, labels: Labels, option: string, n: nat)
    requires n <= MaxInt
    ensures !CheckIfIsConnected(vm, false, net, labels, option, NatToString(n)).request.Crash?
  {
    ToIntOfNatToString(n);
  }

  /** The empty id a url ending in '/' yields makes `toInt()` throw as soon
      as the screen first reads Available with the details missing. */
  lemma EmptyIdCrashes(vm: DV.Vm, labels: Labels)
    requires vm.characterDetails.None?
    ensures CheckIfIsConnected(Some(vm), false, Some(Available), labels, labels.characters, "").request == Crash
  {
  }

  /** Opened online, the requested character's fetch ends on its details page
      when the repository delivers. */
  lemma OnlineCharacterShowsContent(itemId: string, reply: Reply<Character>)
    requires ToInt(itemId).Some? && Delivers(reply)
    ensures var r := CheckIfIsConnected(Some(DV.Initial()), false, Some(Available), LiteralLabels, "Characters", itemId);
      && r.request == FetchCharacter(ToInt(itemId).value)
      && var fetched := DV.GetCharacter(r.vm.value, r.request.id, Available, reply).vm;
      && RenderDetails(Some(fetched)) == Content
      && ContentFor("Characters") == Some(Characters)
      && fetched.characterDetails == reply.body
  {
  }
}

=== FILE: details_view_model.dfy ===
/**
 * `DetailsViewModel`: one fetch per kind (character, planet, ship) by id.
 * Three observers, started at construction, each map their kind's state onto
 * the shared `isLoading` / `isSuccess` / `isError` / `errorMessage` flags and
 * that kind's stored details.
 *
 * Each observer reacts to every state its kind is assigned, in order; the
 * repository's answer is the `reply` parameter.
 */
module DetailsViewModel {
  import opened Wrappers
  import opened Entities
  import opened Remote

  /** The state of one by-id fetch. The compare view model reuses it. */
  datatype Fetch<T> = Loading | Success(item: T) | Error(message: string)

  /** The four flags the observers share. */
  datatype Flags = Flags(isLoading: bool, isSuccess: bool, isError: bool, errorMessage: string)

  /** The fallback for an exception without a message. */
  const UnknownFailure := "An unknown error occurred"

  const CharacterFailure := "Failed to fetch character"
  const PlanetFailure := "Failed to fetch planet"
  const ShipFailure := "Failed to fetch ship"

  /** The state a by-id fetch settles in: the connectivity gate, then the
      three outcomes of the repository call. An empty failure message falls
      back to `failure`; an exception without a message to `UnknownFailure`. */
  function Outcome<T>(net: Status, reply: Reply<T>, failure: string): Fetch<T> {
    if net == Unavailable then Error(NoInternet)
    else if Delivers(reply) then Success(reply.body.value)
    else if reply.Response? then Error(if reply.message != "" then reply.message else failure)
    else Error(reply.exceptionMessage.GetOr(UnknownFailure))
  }

  /** What an observer derives from a state: the flag of the state's own
      case and nothing else, and the message only for an Error. */
  function FlagsFor<T>(s: Fetch<T>): Flags {
    Flags(s.Loading?, s.Success?, s.Error?, if s.Error? then s.message else "")
  }

  /** Stored details agree with a state: present exactly on Success, and
      then its payload. */
  predicate Agrees<T(==)>(details: Option<T>, s: Fetch<T>) {
    && (details.Some? <==> s.Success?)
    && (s.Success? ==> details.value == s.item)
  }

  /** The screen shows `s`: exactly the flag of `s`'s case is raised, the
      message is non-empty only through an Error, and the details agree. */
  predicate Shows<T(==)>(flags: Flags, details: Option<T>, s: Fetch<T>) {
    && (flags.isLoading <==> s.Loading?)
    && (flags.isSuccess <==> s.Success?)
    && (flags.isError <==> s.Error?)
    && (s.Error? ==> flags.errorMessage == s.message)
    && (!s.Error? ==> flags.errorMessage == "")
    && Agrees(details, s)
  }

  lemma ShowsExactlyOneFlag<T>(flags: Flags, details: Option<T>, s: Fetch<T>)
    requires Shows(flags, details, s)
    ensures (flags.isLoading && !flags.isSuccess && !flags.isError)
         || (!flags.isLoading && flags.isSuccess && !flags.isError)
         || (!flags.isLoading && !flags.isSuccess && flags.isError)
  {
  }

  datatype Vm = Vm(
    character: Fetch<Character>, planet: Fetch<Planet>, vehicle: Fetch<Ship>,
    flags: Flags,
    characterDetails: Option<Character>, planetDetails: Option<Planet>, vehicleDetails: Option<Ship>)

  /** Every kind's details agree with that kind's state. */
  predicate DetailsAgree(vm: Vm) {
    Agrees(vm.characterDetails, vm.character) && Agrees(vm.planetDetails, vm.planet)
    && Agrees(vm.vehicleDetails, vm.vehicle)
  }

  function SuccessItem<T>(s: Fetch<T>): Option<T> {
    if s.Success? then Some(s.item) else None
  }

  /** `observeCharacter`'s reaction to the current character state. */
  function ObserveCharacter(vm: Vm): (r: Vm)
    ensures Shows(r.flags, r.characterDetails, vm.character)
    ensures r == vm.(flags := r.flags, characterDetails := r.characterDetails)
  {
    vm.(flags := FlagsFor(vm.character), characterDetails := SuccessItem(vm.character))
  }

  /** `observePlanet`'s reaction to the current planet state. */
  function ObservePlanet(vm: Vm): (r: Vm)
    ensures Shows(r.flags, r.planetDetails, vm.planet)
    ensures r == vm.(flags := r.flags, planetDetails := r.planetDetails)
  {
    vm.(flags := FlagsFor(vm.planet), planetDetails := SuccessItem(vm.planet))
  }

  /** `observeShip`'s reaction to the current ship state. */
  function ObserveShip(vm: Vm): (r: Vm)
    ensures Shows(r.flags, r.vehicleDetails, vm.vehicle)
    ensures r == vm.(flags := r.flags, vehicleDetails := r.vehicleDetails)
  {
    vm.(flags := FlagsFor(vm.vehicle), vehicleDetails := SuccessItem(vm.vehicle))
  }

  /** The view model right after construction: the three observers have
      each seen their initial Loading state, the ship's last. */
  function Initial(): (r: Vm)
    ensures r.flags == Flags(true, false, false, "")
    ensures r.character.Loading? && r.planet.Loading? && r.vehicle.Loading?
    ensures r.characterDetails.None? && r.planetDetails.None? && r.vehicleDetails.None?
    ensures DetailsAgree(r)
  {
    var built := Vm(Loading, Loading, Loading, Flags(false, false, false, ""), None, None, None);
    ObserveShip(ObservePlanet(ObserveCharacter(built)))
  }

  /** The result of one `get*` call: the new state and the id the
      repository was asked for, if it was called. */
  datatype Step = Step(vm: Vm, request: Option<int>)

  /** Setting Loading and raising `isLoading` by hand, as each `get*` does
      before the connectivity gate. */
  function Restart(vm: Vm): Vm {
    vm.(flags := vm.flags.(isLoading := true, isError := false, isSuccess := false))
  }

  /** `getCharacter(id)`, with its observer's reaction to each assignment. */
  function GetCharacter(vm: Vm, id: int, net: Status, reply: Reply<Character>): (r: Step)
    ensures r.request.Some? <==> net == Available
    ensures r.request.Some? ==> r.request.value == id
    ensures Shows(r.vm.flags, r.vm.characterDetails, r.vm.character)
    ensures !r.vm.character.Loading?
    ensures net == Unavailable ==> r.vm.character == Error(NoInternet)
    ensures net == Available && Delivers(reply) ==> r.vm.character == Success(reply.body.value)
    ensures net == Available && reply.Response? && !Delivers(reply) ==>
      r.vm.character == Error(if reply.message != "" then reply.message else CharacterFailure)
    ensures net == Available && reply.Thrown? ==>
      r.vm.character == Error(reply.exceptionMessage.GetOr(UnknownFailure))
    ensures && r.vm.planet == vm.planet && r.vm.planetDetails == vm.planetDetails
            && r.vm.vehicle == vm.vehicle && r.vm.vehicleDetails == vm.vehicleDetails
  {
    var loading := Restart(ObserveCharacter(vm.(character := Loading)));
    var settled := ObserveCharacter(loading.(character := Outcome(net, reply, CharacterFailure)));
    Step(settled, if net == Available then Some(id) else None)
  }

  /** `getPlanet(id)`, with its observer's reaction to each assignment. */
  function GetPlanet(vm: Vm, id: int, net: Status, reply: Reply<Planet>): (r: Step)
    ensures r.request.Some? <==> net == Available
    ensures r.request.Some? ==> r.request.value == id
    ensures Shows(r.vm.flags, r.vm.planetDetails, r.vm.planet)
    ensures !r.vm.planet.Loading?
    ensures net == Unavailable ==> r.vm.planet == Error(NoInternet)
    ensures net == Available && Delivers(reply) ==> r.vm.planet == Success(reply.body.value)
    ensures net == Available && reply.Response? && !Delivers(reply) ==>
      r.vm.planet == Error(if reply.message != "" then reply.message else PlanetFailure)
    ensures net == Available && reply.Thrown? ==>
      r.vm.planet == Error(reply.exceptionMessage.GetOr(UnknownFailure))
    ensures && r.vm.character == vm.character && r.vm.characterDetails == vm.characterDetails
            && r.vm.vehicle == vm.vehicle && r.vm.vehicleDetails == vm.vehicleDetails
  {
    var loading := Restart(ObservePlanet(vm.(planet := Loading)));
    var settled := ObservePlanet(loading.(planet := Outcome(net, reply, PlanetFailure)));
    Step(settled, if net == Available then Some(id) else None)
  }

  /** `getShip(id)`, with its observer's reaction to each assignment. */
  function GetShip(vm: Vm, id: int, net: Status, reply: Reply<Ship>): (r: Step)
    ensures r.request.Some? <==> net == Available
    ensures r.request.Some? ==> r.request.value == id
    ensures Shows(r.vm.flags, r.vm.vehicleDetails, r.vm.vehicle)
    ensures !r.vm.vehicle.Loading?
    ensures net == Unavailable ==> r.vm.vehicle == Error(NoInternet)
    ensures net == Available && Delivers(reply) ==> r.vm.vehicle == Success(reply.body.value)
    ensures net == Available && reply.Response? && !Delivers(reply) ==>
      r.vm.vehicle == Error(if reply.message != "" then reply.message else ShipFailure)
    ensures net == Available && reply.Thrown? ==>
      r.vm.vehicle == Error(reply.exceptionMessage.GetOr(UnknownFailure))
    ensures && r.vm.character == vm.character && r.vm.characterDetails == vm.characterDetails
            && r.vm.planet == vm.planet && r.vm.planetDetails == vm.planetDetails
  {
    var loading := Restart(ObserveShip(vm.(vehicle := Loading)));
    var settled := ObserveShip(loading.(vehicle := Outcome(net, reply, ShipFailure)));
    Step(settled, if net == Available then Some(id) else None)
  }

  /** A failed response never leaves an empty error message on screen;
      only an exception whose own message is empty can. */
  lemma FailureMessageNonEmpty(vm: Vm, id: int, net: Status, c: Reply<Character>, p: Reply<Planet>, s: Reply<Ship>)
    requires !c.Thrown? && !p.Thrown? && !s.Thrown?
    ensures GetCharacter(vm, id, net, c).vm.flags.isError ==> GetCharacter(vm, id, net, c).vm.flags.errorMessage != ""
    ensures GetPlanet(vm, id, net, p).vm.flags.isError ==> GetPlanet(vm, id, net, p).vm.flags.errorMessage != ""
    ensures GetShip(vm, id, net, s).vm.flags.isError ==> GetShip(vm, id, net, s).vm.flags.errorMessage != ""
  {
  }

  /** The calls a screen can make on the view model. */
  datatype Call =
    | CharacterCall(id: int, net: Status, characterReply: Reply<Character>)
    | PlanetCall(id: int, net: Status, planetReply: Reply<Planet>)
    | ShipCall(id: int, net: Status, shipReply: Reply<Ship>)

  function Apply(vm: Vm, call: Call): Vm {
    match call
    case CharacterCall(id, net, reply) => GetCharacter(vm, id, net, reply).vm
    case PlanetCall(id, net, reply) => GetPlanet(vm, id, net, reply).vm
    case ShipCall(id, net, reply) => GetShip(vm, id, net, reply).vm
  }

  /** The calls in order. */
  function Run(vm: Vm, calls: seq<Call>): Vm
    decreases |calls|
  {
    if |calls| == 0 then vm else Run(Apply(vm, calls[0]), calls[1..])
  }

  /** Whatever calls are made, each kind's stored details stay in step with
      that kind's state: non-null exactly on Success, with its payload. */
  lemma {:induction false} RunKeepsDetailsAgreeing(vm: Vm, calls: seq<Call>)
    requires DetailsAgree(vm)
    ensures DetailsAgree(Run(vm, calls))
    decreases |calls|
  {
    if |calls| > 0 {
      RunKeepsDetailsAgreeing(Apply(vm, calls[0]), calls[1..]);
    }
  }

  /** After at least one call the flags show the state of the kind most
      recently fetched, whatever came before. */
  lemma {:induction false} RunShowsLastCall(vm: Vm, calls: seq<Call>)
    requires |calls| > 0
    ensures var r := Run(vm, calls);
      match calls[|calls| - 1]
      case CharacterCall(_, _, _) => Shows(r.flags, r.characterDetails, r.character)
      case PlanetCall(_, _, _) => Shows(r.flags, r.planetDetails, r.planet)
      case ShipCall(_, _, _) => Shows(r.flags, r.vehicleDetails, r.vehicle)
    decreases |calls|
  {
    if |calls| > 1 {
      assert calls[1..][|calls[1..]| - 1] == calls[|calls| - 1];
      RunShowsLastCall(Apply(vm, calls[0]), calls[1..]);
    }
  }
}

=== FILE: entities.dfy ===
/**
 * The records the client shows, mirroring the remote catalog's JSON, and
 * the small enumerations shared by the screens and view models.
 */
module Entities {

  /** A person of the catalog; `url` is its identity. `species` holds the
      species entries the filter compares against. */
  datatype Character = Character(
    name: string,
    height: string,
    mass: string,
    gender: string,
    eyeColor: string,
    hairColor: string,
    birthYear: string,
    species: seq<string>,
    url: string)

  datatype Planet = Planet(
    name: string,
    population: string,
    terrain: string,
    climate: string,
    url: string)

  datatype Ship = Ship(
    name: string,
    model: string,
    manufacturer: string,
    passengers: string,
    url: string)

  /** A species with the urls of its member characters. */
  datatype SpeciesItem = SpeciesItem(name: string, people: seq<string>, url: string)

  /** The sort and search key of each kind. */
  function CharacterName(c: Character): string { c.name }
  function PlanetName(p: Planet): string { p.name }
  function ShipName(s: Ship): string { s.name }

  /** The connectivity observer's status. */
  datatype Status = Available | Unavailable

  /** The three browsable kinds of the catalog. */
  datatype Kind = Characters | Planets | Ships

  /** The translated option labels ("Characters", "Planets", "Ships" in the
      default locale) the screens compare the selected option against. */
  datatype Labels = Labels(characters: string, planets: string, ships: string)

  /** The literal option names used where the source does not go through
      the string resources. */
  const LiteralLabels := Labels("Characters", "Planets", "Ships")

  /** The selected sort key: button 0 ("Name") or button 1 ("Year"). */
  datatype SortKey = ByName | ByYear
}

=== FILE: filter.dfy ===
/**
 * The species/gender filter of the search screen's bottom sheet
 * (`Filter.filterCharacters`): an AND of a case-insensitive species test
 * and a case-insensitive gender test over the saved full character list,
 * where an absent or empty selection switches its own test off.
 */
module Filter {
  import opened Wrappers
  import opened Text
  import opened Seqs
  import opened Entities

  /** `list.map { it.lowercase() }`. */
  function LowerAll(list: seq<string>): (r: seq<string>)
    ensures |r| == |list|
    ensures forall j :: 0 <= j < |list| ==> r[j] == LowerStr(list[j])
  {
    if |list| == 0 then [] else [LowerStr(list[0])] + LowerAll(list[1..])
  }

  /** The per-character test the filter's lambda evaluates, on the lowered
      selections, the way the source writes it. */
  predicate Passes(c: Character, hasSpecies: bool, speciesLower: seq<string>,
                   hasGender: bool, genderLower: seq<string>)
  {
    var speciesMatch := if hasSpecies then (exists e :: e in c.species && LowerStr(e) in speciesLower) else true;
    var genderMatch := if hasGender then LowerStr(c.gender) in genderLower else true;
    speciesMatch && genderMatch
  }

  /** Some species entry of `c` equals some selected species, ignoring case. */
  predicate SpeciesTest(c: Character, species: seq<string>) {
    exists i, j :: 0 <= i < |c.species| && 0 <= j < |species| && EqualsIgnoreCase(c.species[i], species[j])
  }

  /** The gender of `c` equals some selected gender, ignoring case. */
  predicate GenderTest(c: Character, gender: seq<string>) {
    exists j :: 0 <= j < |gender| && EqualsIgnoreCase(c.gender, gender[j])
  }

  /** What the filter promises of a kept character: each selection that is
      present and non-empty must be matched; the two tests are combined with AND. */
  predicate Selected(species: Option<seq<string>>, gender: Option<seq<string>>, c: Character) {
    && (IsNullOrEmpty(species) || SpeciesTest(c, species.value))
    && (IsNullOrEmpty(gender) || GenderTest(c, gender.value))
  }

  /** `Filter.filterCharacters(species, gender, allCharactersSaved)`. */
  function FilterCharacters(species: Option<seq<string>>, gender: Option<seq<string>>,
                            saved: Option<seq<Character>>): (r: Option<seq<Character>>)
    ensures r.None? <==> saved.None?
    ensures r.Some? ==> IsFilterOf(r.value, saved.value, c => Selected(species, gender, c))
    ensures r.Some? && IsNullOrEmpty(species) && IsNullOrEmpty(gender) ==> r == saved
  {
    if saved.None? then None
    else
      var hasSpecies := !IsNullOrEmpty(species);
      var hasGender := !IsNullOrEmpty(gender);
      var speciesLower := if species.Some? then LowerAll(species.value) else [];
      var genderLower := if gender.Some? then LowerAll(gender.value) else [];
      var pass := c => Passes(c, hasSpecies, speciesLower, hasGender, genderLower);
      var kept := Keep(saved.value, pass);
      PassesIffSelected(species, gender);
      KeepIsFilter(saved.value, pass);
      IsFilterOfCongruent(kept, saved.value, pass, c => Selected(species, gender, c));
      if !hasSpecies && !hasGender then
        KeepAll(saved.value, pass);
        Some(kept)
      else
        Some(kept)
  }

  /** Membership of a lowered species entry in the lowered selection is the
      case-insensitive species test. */
  lemma SpeciesPassesIff(c: Character, species: seq<string>)
    ensures (exists e :: e in c.species && LowerStr(e) in LowerAll(species)) <==> SpeciesTest(c, species)
  {
    var sl := LowerAll(species);
    if exists e :: e in c.species && LowerStr(e) in sl {
      var e :| e in c.species && LowerStr(e) in sl;
      var i :| 0 <= i < |c.species| && c.species[i] == e;
      var j :| 0 <= j < |sl| && sl[j] == LowerStr(e);
      assert EqualsIgnoreCase(c.species[i], species[j]);
    }
    if SpeciesTest(c, species) {
      var i, j :| 0 <= i < |c.species| && 0 <= j < |species| && EqualsIgnoreCase(c.species[i], species[j]);
      assert LowerStr(c.species[i]) == sl[j];
    }
  }

  /** Membership of the lowered gender in the lowered selection is the
      case-insensitive gender test. */
  lemma GenderPassesIff(c: Character, gender: seq<string>)
    ensures LowerStr(c.gender) in LowerAll(gender) <==> GenderTest(c, gender)
  {
    var gl := LowerAll(gender);
    if LowerStr(c.gender) in gl {
      var j :| 0 <= j < |gl| && gl[j] == LowerStr(c.gender);
      assert EqualsIgnoreCase(c.gender, gender[j]);
    }
    if GenderTest(c, gender) {
      var j :| 0 <= j < |gender| && EqualsIgnoreCase(c.gender, gender[j]);
      assert LowerStr(c.gender) == gl[j];
    }
  }

  /** The lowered-list membership the source evaluates is the case-insensitive
      test the filter is specified by. */
  lemma PassesIffSelected(species: Option<seq<string>>, gender: Option<seq<string>>)
    ensures forall c ::
      Passes(c, !IsNullOrEmpty(species), if species.Some? then LowerAll(species.value) else [],
             !IsNullOrEmpty(gender), if gender.Some? then LowerAll(gender.value) else [])
      <==> Selected(species, gender, c)
  {
    forall c: Character
      ensures Passes(c, !IsNullOrEmpty(species), if species.Some? then LowerAll(species.value) else [],
                     !IsNullOrEmpty(gender), if gender.Some? then LowerAll(gender.value) else [])
              <==> Selected(species, gender, c)
    {
      if !IsNullOrEmpty(species) {
        SpeciesPassesIff(c, species.value);
      }
      if !IsNullOrEmpty(gender) {
        GenderPassesIff(c, gender.value);
      }
    }
  }

  /** Adding a value to a species selection that is already non-empty never
      drops a character from the result: the old result is a subsequence of the new one. */
  lemma AddSpeciesNeverRemoves(species: seq<string>, extra: string, gender: Option<seq<string>>,
                               saved: seq<Character>)
    requires |species| > 0
    ensures IsSubseq(FilterCharacters(Some(species), gender, Some(saved)).value,
                     FilterCharacters(Some(species + [extra]), gender, Some(saved)).value)
  {
    var before := FilterCharacters(Some(species), gender, Some(saved)).value;
    var after := FilterCharacters(Some(species + [extra]), gender, Some(saved)).value;
    var p := c => Selected(Some(species), gender, c);
    var q := c => Selected(Some(species + [extra]), gender, c);
    forall c | p(c) ensures q(c) {
      if SpeciesTest(c, species) {
        var i, j :| 0 <= i < |c.species| && 0 <= j < |species| && EqualsIgnoreCase(c.species[i], species[j]);
        assert (species + [extra])[j] == species[j];
      }
    }
    KeepMonotone(saved, p, q);
    FilterIsKeep(Some(species), gender, saved);
    FilterIsKeep(Some(species + [extra]), gender, saved);
  }

  /** Adding a value to a gender selection that is already non-empty never
      drops a character from the result. */
  lemma AddGenderNeverRemoves(species: Option<seq<string>>, gender: seq<string>, extra: string,
                              saved: seq<Character>)
    requires |gender| > 0
    ensures IsSubseq(FilterCharacters(species, Some(gender), Some(saved)).value,
                     FilterCharacters(species, Some(gender + [extra]), Some(saved)).value)
  {
    var p := c => Selected(species, Some(gender), c);
    var q := c => Selected(species, Some(gender + [extra]), c);
    forall c | p(c) ensures q(c) {
      if GenderTest(c, gender) {
        var j :| 0 <= j < |gender| && EqualsIgnoreCase(c.gender, gender[j]);
        assert (gender + [extra])[j] == gender[j];
      }
    }
    KeepMonotone(saved, p, q);
    FilterIsKeep(species, Some(gender), saved);
    FilterIsKeep(species, Some(gender + [extra]), saved);
  }

  /** The filter's result is `saved.filter(Selected)`. */
  lemma FilterIsKeep(species: Option<seq<string>>, gender: Option<seq<string>>, saved: seq<Character>)
    ensures FilterCharacters(species, gender, Some(saved)).value == Keep(saved, c => Selected(species, gender, c))
  {
    var speciesLower := if species.Some? then LowerAll(species.value) else [];
    var genderLower := if gender.Some? then LowerAll(gender.value) else [];
    PassesIffSelected(species, gender);
    KeepCongruent(saved, c => Passes(c, !IsNullOrEmpty(species), speciesLower, !IsNullOrEmpty(gender), genderLower),
                  c => Selected(species, gender, c));
  }
}

=== FILE: list_results.dfy ===
/**
 * `ListResults` and `ListResultsWithCheckBox`: the id taken from an item's
 * url, the navigation routes built from it, the row key of the compare list
 * and its single-selection checkbox map.
 */
module ListResults {
  import opened Wrappers
  import opened Decimal
  import opened Entities

  const Slash := '/'

  /** Kotlin's `s.split("/")`: every piece between separators, empty pieces
      included, so there is always at least one. */
  function Split(s: string): (r: seq<string>)
    ensures |r| >= 1
    decreases |s|
  {
    if |s| == 0 then [""]
    else
      var rest := Split(s[1..]);
      if s[0] == Slash then [""] + rest else [[s[0]] + rest[0]] + rest[1..]
  }

  /** The pieces joined back with '/' between them. */
  function Join(parts: seq<string>): string
    requires |parts| >= 1
    decreases |parts|
  {
    if |parts| == 1 then parts[0] else parts[0] + [Slash] + Join(parts[1..])
  }

  /** Joining a first piece in front of at least one more. */
  lemma JoinCons(p: string, rest: seq<string>)
    requires |rest| >= 1
    ensures Join([p] + rest) == p + [Slash] + Join(rest)
  {
    assert ([p] + rest)[1..] == rest;
  }

  lemma JoinThree(a: string, b: string, c: string)
    ensures Join([a, b, c]) == a + [Slash] + b + [Slash] + c
  {
    JoinCons(b, [c]);
    assert [b, c] == [b] + [c];
    JoinCons(a, [b, c]);
    assert [a, b, c] == [a] + [b, c];
  }

  lemma JoinFour(a: string, b: string, c: string, d: string)
    ensures Join([a, b, c, d]) == a + [Slash] + b + [Slash] + c + [Slash] + d
  {
    JoinThree(b, c, d);
    JoinCons(a, [b, c, d]);
    assert [a, b, c, d] == [a] + [b, c, d];
  }

  predicate NoSlash(s: string) {
    forall i :: 0 <= i < |s| ==> s[i] != Slash
  }

  /** No piece of a split holds a separator. */
  lemma {:induction false} SplitPiecesHaveNoSlash(s: string)
    ensures forall k :: 0 <= k < |Split(s)| ==> NoSlash(Split(s)[k])
    decreases |s|
  {
    if |s| > 0 {
      SplitPiecesHaveNoSlash(s[1..]);
    }
  }

  /** Joining the pieces of a split gives back the string. */
  lemma {:induction false} JoinSplit(s: string)
    ensures Join(Split(s)) == s
    decreases |s|
  {
    if |s| > 0 {
      var rest := Split(s[1..]);
      JoinSplit(s[1..]);
      if s[0] == Slash {
        assert Split(s)[1..] == rest;
      } else {
        if |rest| > 1 {
          assert Split(s)[1..] == rest[1..];
          assert Join(rest) == rest[0] + [Slash] + Join(rest[1..]);
        }
        assert s == [s[0]] + s[1..];
      }
    }
  }

  /** A leading separator starts a new, empty piece. */
  lemma SplitSlashCons(t: string)
    ensures Split([Slash] + t) == [""] + Split(t)
  {
    assert ([Slash] + t)[1..] == t;
  }

  /** A leading ordinary character joins the first piece. */
  lemma SplitCharCons(ch: char, t: string)
    requires ch != Slash
    ensures Split([ch] + t) == [[ch] + Split(t)[0]] + Split(t)[1..]
  {
    assert ([ch] + t)[1..] == t;
  }

  /** The inductive step when the first piece is empty. */
  lemma SplitJoinEmptyHead(parts: seq<string>)
    requires |parts| >= 2 && parts[0] == ""
    requires Split(Join(parts[1..])) == parts[1..]
    ensures Split(Join(parts)) == parts
  {
    var rest, tail := parts[1..], Join(parts[1..]);
    assert Join(parts) == parts[0] + [Slash] + tail;
    assert parts[0] + [Slash] + tail == [Slash] + tail;
    SplitSlashCons(tail);
    assert parts == [""] + rest;
  }

  /** The inductive step when the first piece starts with an ordinary character. */
  lemma SplitJoinCharHead(parts: seq<string>)
    requires |parts| >= 2 && |parts[0]| > 0 && parts[0][0] != Slash
    requires Split(Join([parts[0][1..]] + parts[1..])) == [parts[0][1..]] + parts[1..]
    ensures Split(Join(parts)) == parts
  {
    var p := parts[0];
    var shorter := [p[1..]] + parts[1..];
    assert shorter[1..] == parts[1..];
    assert Join(shorter) == p[1..] + [Slash] + Join(parts[1..]);
    assert Join(parts) == [p[0]] + Join(shorter);
    SplitCharCons(p[0], Join(shorter));
    assert [p[0]] + p[1..] == p;
    assert parts == [p] + parts[1..];
  }

  /** Splitting a join of separator-free pieces gives back the pieces. */
  lemma {:induction false} SplitJoin(parts: seq<string>)
    requires |parts| >= 1
    requires forall k :: 0 <= k < |parts| ==> NoSlash(parts[k])
    ensures Split(Join(parts)) == parts
    decreases |parts|, |parts[0]|
  {
    if |parts| == 1 {
      SplitNoSlash(parts[0]);
    } else if |parts[0]| == 0 {
      SplitJoin(parts[1..]);
      SplitJoinEmptyHead(parts);
    } else {
      var shorter := [parts[0][1..]] + parts[1..];
      assert NoSlash(shorter[0]);
      assert forall k :: 1 <= k < |shorter| ==> shorter[k] == parts[k];
      SplitJoin(shorter);
      SplitJoinCharHead(parts);
    }
  }

  lemma SplitJoinThree(a: string, b: string, c: string)
    requires NoSlash(a) && NoSlash(b) && NoSlash(c)
    ensures Split(Join([a, b, c])) == [a, b, c]
  {
    var parts := [a, b, c];
    assert forall k :: 0 <= k < |parts| ==> NoSlash(parts[k]) by {
      forall k | 0 <= k < |parts| ensures NoSlash(parts[k]) {
        assert parts[k] == a || parts[k] == b || parts[k] == c;
      }
    }
    SplitJoin(parts);
  }

  lemma SplitJoinFour(a: string, b: string, c: string, d: string)
    requires NoSlash(a) && NoSlash(b) && NoSlash(c) && NoSlash(d)
    ensures Split(Join([a, b, c, d])) == [a, b, c, d]
  {
    var parts := [a, b, c, d];
    assert forall k :: 0 <= k < |parts| ==> NoSlash(parts[k]) by {
      forall k | 0 <= k < |parts| ensures NoSlash(parts[k]) {
        assert parts[k] == a || parts[k] == b || parts[k] == c || parts[k] == d;
      }
    }
    SplitJoin(parts);
  }

  lemma {:induction false} SplitNoSlash(s: string)
    requires NoSlash(s)
    ensures Split(s) == [s]
    decreases |s|
  {
    if |s| > 0 {
      SplitNoSlash(s[1..]);
      assert [s[0]] + s[1..] == s;
    }
  }

  /** `url.split("/").last()`, as the list rows compute the item id. */
  function UrlIdAsWritten(url: string): (r: string)
    ensures NoSlash(r)
    ensures |r| <= |url| && r == url[|url| - |r|..]
    ensures |r| < |url| ==> url[|url| - |r| - 1] == Slash
  {
    SplitPiecesHaveNoSlash(url);
    JoinSplit(url);
    LastPieceIsSuffix(Split(url));
    Split(url)[|Split(url)| - 1]
  }

  /** The last piece of a join is what follows its last separator. */
  lemma {:induction false} LastPieceIsSuffix(parts: seq<string>)
    requires |parts| >= 1
    ensures var s := Join(parts); var last := parts[|parts| - 1];
      |last| <= |s| && last == s[|s| - |last|..]
      && (|parts| > 1 ==> |last| < |s| && s[|s| - |last| - 1] == Slash)
    decreases |parts|
  {
    if |parts| > 1 {
      LastPieceIsSuffix(parts[1..]);
      var s := Join(parts);
      var t := Join(parts[1..]);
      assert s == parts[0] + [Slash] + t;
      assert parts[1..][|parts[1..]| - 1] == parts[|parts| - 1];
    }
  }

  /** A url that ends with '/' yields an empty id. */
  lemma TrailingSlashGivesEmptyId(url: string)
    requires |url| > 0 && url[|url| - 1] == Slash
    ensures UrlIdAsWritten(url) == ""
  {
  }

  /** The id of a url of the form ".../people/1/" as written is empty, where
      the rows evidently mean "1". */
  lemma UrlIdAsWrittenLosesId()
    ensures UrlIdAsWritten("people/1/") == ""
    ensures UrlId("people/1/") == "1"
  {
    TrailingSlashGivesEmptyId("people/1/");
    UrlIdOfIdUrl("people", "1");
    assert "people" + [Slash] + "1" + [Slash] == "people/1/";
  }

  /** The url without its trailing separators. */
  function TrimSlashes(s: string): (r: string)
    ensures |r| <= |s| && r == s[..|r|]
    ensures |r| > 0 ==> r[|r| - 1] != Slash
    ensures forall i :: |r| <= i < |s| ==> s[i] == Slash
    decreases |s|
  {
    if |s| > 0 && s[|s| - 1] == Slash then TrimSlashes(s[..|s| - 1]) else s
  }

  /** The item id as the rows evidently intend it: the last non-empty piece
      of the url, the text between its last two separators when it ends
      with '/'. */
  function UrlId(url: string): (r: string)
    ensures NoSlash(r)
    ensures |r| <= |url|
    ensures |url| > 0 && url[|url| - 1] != Slash ==> r == UrlIdAsWritten(url)
  {
    UrlIdAsWritten(TrimSlashes(url))
  }

  /** For a url "<prefix>/<id>/" or "<prefix>/<id>" the id is recovered. */
  lemma UrlIdOfIdUrl(prefix: string, id: string)
    requires |id| > 0 && NoSlash(id)
    ensures UrlId(prefix + [Slash] + id + [Slash]) == id
    ensures UrlId(prefix + [Slash] + id) == id
  {
    var bare := prefix + [Slash] + id;
    assert (bare + [Slash])[..|bare|] == bare;
    assert TrimSlashes(bare + [Slash]) == TrimSlashes(bare);
    assert TrimSlashes(bare) == bare;
    var r := UrlIdAsWritten(bare);
    assert bare[|bare| - |id| - 1] == Slash;
    assert bare[|bare| - |id|..] == id;
  }

  /** Kotlin's string template of a nullable value: "null" for null. */
  function Template(s: Option<string>): string {
    if s.Some? then s.value else "null"
  }

  /** The first segments of the two routes a list builds. */
  const DetailsHead := "details"
  const CompareHead := "compareCharacters"

  /** The details route of a list row, "details/<option>/<id>/<name>", with
      the id as the row computes it (`split("/").last()`). */
  function DetailsRoute(option: string, url: string, name: string): (r: string)
    ensures r == Join([DetailsHead, option, UrlIdAsWritten(url), name])
  {
    var id := UrlIdAsWritten(url);
    JoinFour(DetailsHead, option, id, name);
    DetailsHead + [Slash] + option + [Slash] + id + [Slash] + name
  }

  /** A route whose option and name hold no separator splits back into its
      parts, so the details screen receives the option, name and id segment
      the row sent. */
  lemma DetailsRouteParses(option: string, url: string, name: string)
    requires NoSlash(option) && NoSlash(name)
    ensures Split(DetailsRoute(option, url, name)) == [DetailsHead, option, UrlIdAsWritten(url), name]
  {
    assert NoSlash(DetailsHead);
    SplitJoinFour(DetailsHead, option, UrlIdAsWritten(url), name);
  }

  /** For a url ending in '/' the details screen receives an empty id. */
  lemma TrailingSlashRouteHasEmptyId(option: string, url: string, name: string)
    requires NoSlash(option) && NoSlash(name)
    requires |url| > 0 && url[|url| - 1] == Slash
    ensures Split(DetailsRoute(option, url, name)) == [DetailsHead, option, "", name]
  {
    DetailsRouteParses(option, url, name);
    TrailingSlashGivesEmptyId(url);
  }

  /** The compare route, built only when the row's box is checked, again with
      the id as the row computes it. */
  function CompareRoute(isChecked: bool, itemId: Option<string>, url: string): (r: Option<string>)
    ensures r.Some? <==> isChecked
    ensures r.Some? ==> r.value == Join([CompareHead, Template(itemId), UrlIdAsWritten(url)])
  {
    var item, id := Template(itemId), UrlIdAsWritten(url);
    JoinThree(CompareHead, item, id);
    if isChecked then Some(CompareHead + [Slash] + item + [Slash] + id) else None
  }

  lemma CompareRouteParses(itemId: Option<string>, url: string)
    requires itemId.Some? ==> NoSlash(itemId.value)
    ensures Split(CompareRoute(true, itemId, url).value) == [CompareHead, Template(itemId), UrlIdAsWritten(url)]
  {
    assert NoSlash(CompareHead);
    var nul := "null";
    assert NoSlash(nul);
    SplitJoinThree(CompareHead, Template(itemId), UrlIdAsWritten(url));
  }

  /** The routes the rows evidently intend: the same shapes carrying the
      corrected id. */
  function DetailsRouteFixed(option: string, url: string, name: string): (r: string)
    ensures r == Join([DetailsHead, option, UrlId(url), name])
  {
    var id := UrlId(url);
    JoinFour(DetailsHead, option, id, name);
    DetailsHead + [Slash] + option + [Slash] + id + [Slash] + name
  }

  /** With the corrected id a "<prefix>/<id>/" url delivers its id. */
  lemma DetailsRouteFixedCarriesId(option: string, prefix: string, id: string, name: string)
    requires NoSlash(option) && NoSlash(name) && |id| > 0 && NoSlash(id)
    ensures Split(DetailsRouteFixed(option, prefix + [Slash] + id + [Slash], name)) == [DetailsHead, option, id, name]
  {
    assert NoSlash(DetailsHead);
    UrlIdOfIdUrl(prefix, id);
    SplitJoinFour(DetailsHead, option, id, name);
  }

  /** The key of row `index`: the item's url, or the index in decimal when
      there is no item at that index. */
  function RowKey(list: Option<seq<Character>>, index: nat): (r: string)
    ensures list.Some? && index < |list.value| ==> r == list.value[index].url
    ensures !(list.Some? && index < |list.value|) ==> ToInt(r) == Some(index as int) || index > MaxInt
  {
    if list.Some? && index < |list.value| then list.value[index].url
    else
      ToIntOfNatToString(index);
      NatToString(index)
  }

  /** The checked state of each row, by key. */
  type Checks = map<string, bool>

  /** At most one row is checked. */
  predicate SingleSelection(m: Checks) {
    forall a, b :: a in m && b in m && m[a] && m[b] ==> a == b
  }

  function IsChecked(m: Checks, key: string): bool {
    key in m && m[key]
  }

  /** Every other known row unchecked, then `key` set to `value`. */
  function Select(m: Checks, key: string, value: bool): (r: Checks)
    ensures r.Keys == m.Keys + {key}
    ensures r[key] == value
    ensures forall k :: k in r && k != key ==> !r[k]
    ensures SingleSelection(r)
  {
    (map k | k in m.Keys :: false)[key := value]
  }

  /** A click on the row: the row toggles, every other row is unchecked. */
  function ClickRow(m: Checks, key: string): (r: Checks)
    ensures SingleSelection(r)
    ensures IsChecked(r, key) <==> !IsChecked(m, key)
    ensures forall k :: k != key ==> !IsChecked(r, k)
  {
    Select(m, key, !IsChecked(m, key))
  }

  /** The checkbox itself: set to the new value, every other row unchecked. */
  function CheckedChange(m: Checks, key: string, value: bool): (r: Checks)
    ensures SingleSelection(r)
    ensures IsChecked(r, key) == value
    ensures forall k :: k != key ==> !IsChecked(r, k)
  {
    Select(m, key, value)
  }

  /** Clicking the same row twice leaves it as it was; a checked row is the
      only one checked afterwards. */
  lemma ClickTwice(m: Checks, key: string)
    ensures IsChecked(ClickRow(ClickRow(m, key), key), key) == IsChecked(m, key)
  {
  }

  /** The events a user can cause on the compare list. */
  datatype Event = RowClick(rowKey: string) | BoxChange(boxKey: string, value: bool)

  function Handle(m: Checks, e: Event): Checks {
    match e
    case RowClick(k) => ClickRow(m, k)
    case BoxChange(k, v) => CheckedChange(m, k, v)
  }

  function Replay(m: Checks, events: seq<Event>): Checks
    decreases |events|
  {
    if |events| == 0 then m else Replay(Handle(m, events[0]), events[1..])
  }

  /** Starting from no checked row, no sequence of events ever checks two. */
  lemma {:induction false} ReplayKeepsSingleSelection(m: Checks, events: seq<Event>)
    requires SingleSelection(m)
    ensures SingleSelection(Replay(m, events))
    decreases |events|
  {
    if |events| > 0 {
      ReplayKeepsSingleSelection(Handle(m, events[0]), events[1..]);
    }
  }
}

=== FILE: remote.dfy ===
/**
 * What a repository call can produce, as seen by the view models: a
 * response (successful or not, with or without a body, and a status
 * message) or an exception with an optional message.
 */
module Remote {
  import opened Wrappers

  datatype Reply<T> =
    | Response(isSuccessful: bool, body: Option<T>, message: string)
    | Thrown(exceptionMessage: Option<string>)

  /** The message every view model uses when connectivity is unavailable. */
  const NoInternet := "No Internet Connection"

  /** Kotlin's `response.isSuccessful && response.body() != null`. */
  predicate Delivers<T>(reply: Reply<T>) {
    reply.Response? && reply.isSuccessful && reply.body.Some?
  }
}

=== FILE: render.dfy ===
/**
 * The render priority both the search and the details screen apply to their
 * view model's flags: the spinner first, then the error text, then the
 * content. The view model is nullable, so each flag is too, and a flag
 * counts only when it is `true` (Kotlin's `flag == true`).
 */
module Render {
  import opened Wrappers

  datatype View = Spinner | ErrorText(text: string) | Content | Blank

  /** The error text's fallback for a null message. */
  const UnknownError := "Unknown error"

  predicate IsTrue(flag: Option<bool>) {
    flag == Some(true)
  }

  function Priority(isLoading: Option<bool>, isError: Option<bool>, isSuccess: Option<bool>,
                  errorMessage: Option<string>): (r: View)
    ensures r.Spinner? <==> IsTrue(isLoading)
    ensures r.ErrorText? <==> !IsTrue(isLoading) && IsTrue(isError)
    ensures r.ErrorText? ==> r.text == errorMessage.GetOr(UnknownError)
    ensures r.Content? <==> !IsTrue(isLoading) && !IsTrue(isError) && IsTrue(isSuccess)
    ensures r.Blank? <==> !IsTrue(isLoading) && !IsTrue(isError) && !IsTrue(isSuccess)
  {
    if IsTrue(isLoading) then Spinner
    else if IsTrue(isError) then ErrorText(errorMessage.GetOr(UnknownError))
    else if IsTrue(isSuccess) then Content
    else Blank
  }
}

=== FILE: screen_size.dfy ===
/**
 * `ScreenSizeUtils.calculateCustomWidth` / `calculateCustomHeight`: scale a
 * base size by the screen's width class, or by its height class and
 * orientation. The screen dimensions (in dp) and the orientation are
 * parameters; `Int` arithmetic is 32-bit.
 */
module ScreenSize {
  import opened Decimal

  const SmallWidth := 600
  const MediumWidth := 840
  const SmallHeight := 950
  const MediumHeight := 1400

  predicate IsInt(x: int) {
    MinInt <= x <= MaxInt
  }

  /** Kotlin `Int` multiplication wraps around modulo 2^32. */
  function Wrap(x: int): (r: int)
    ensures IsInt(r)
    ensures (x - r) % 0x1_0000_0000 == 0
    ensures IsInt(x) ==> r == x
  {
    var m := x % 0x1_0000_0000;
    if m > MaxInt then m - 0x1_0000_0000 else m
  }

  /** `Double.toInt()` rounds toward zero and saturates at the `Int` range. */
  function Saturate(x: int): (r: int)
    ensures IsInt(r)
    ensures x > MaxInt ==> r == MaxInt
    ensures x < MinInt ==> r == MinInt
    ensures IsInt(x) ==> r == x
  {
    if x < MinInt then MinInt else if x > MaxInt then MaxInt else x
  }

  /** `(n * k / 2)` rounded toward zero, as `(n * (k / 2.0)).toInt()` does
      before saturation (the product of an `Int` and 1.5 or 0.5 is exact in
      a `Double`). */
  function HalvesTowardZero(n: int, k: int): int {
    if n * k >= 0 then (n * k) / 2 else -((-(n * k)) / 2)
  }

  /** `calculateCustomWidth(baseSize)`. */
  function CustomWidth(screenWidth: int, baseSize: int): (r: int)
    requires IsInt(baseSize)
    ensures IsInt(r)
    ensures screenWidth < SmallWidth ==> r == baseSize
    ensures SmallWidth <= screenWidth < MediumWidth && 0 <= baseSize && 3 * baseSize <= 2 * MaxInt + 1 ==>
      2 * r <= 3 * baseSize < 2 * r + 2
    ensures SmallWidth <= screenWidth < MediumWidth && 3 * baseSize > 2 * MaxInt + 1 ==> r == MaxInt
    ensures MediumWidth <= screenWidth && 2 * baseSize <= MaxInt && baseSize >= MinInt / 2 ==> r == 2 * baseSize
  {
    if screenWidth < SmallWidth then baseSize
    else if screenWidth < MediumWidth then Saturate(HalvesTowardZero(baseSize, 3))
    else Wrap(baseSize * 2)
  }

  /** For every non-negative base below 2^30 a wider screen never yields a
      smaller size. */
  lemma WidthMonotone(w1: int, w2: int, baseSize: int)
    requires w1 <= w2
    requires 0 <= baseSize < 0x4000_0000
    ensures CustomWidth(w1, baseSize) <= CustomWidth(w2, baseSize)
  {
  }

  /** From 2^30 on, the doubling of the widest class wraps negative. */
  lemma WidthWrapsForHugeBase()
    ensures CustomWidth(MediumWidth, 0x4000_0000) == MinInt
    ensures CustomWidth(SmallWidth, 0x4000_0000) > 0
  {
  }

  /** The height result: an exact `Int`, or the base times 0.2, a `Double`
      product that is not modelled. */
  datatype Height = Exact(value: int) | FifthOf(baseSize: int)

  /** `calculateCustomHeight(baseSize)`. */
  function CustomHeight(screenHeight: int, portrait: bool, baseSize: int): (r: Height)
    requires IsInt(baseSize)
    ensures r.Exact? ==> IsInt(r.value)
    ensures SmallHeight <= screenHeight < MediumHeight ==>
      r.Exact? && (baseSize >= 0 ==> r.value == baseSize / 2) && (baseSize < 0 ==> r.value == -((-baseSize) / 2))
    ensures portrait && screenHeight < SmallHeight ==> r == Exact(baseSize)
    ensures !portrait && MediumHeight <= screenHeight ==> r == Exact(baseSize)
    ensures r.FifthOf? <==> (portrait <==> MediumHeight <= screenHeight) && !(SmallHeight <= screenHeight < MediumHeight)
    ensures r.FifthOf? ==> r.baseSize == baseSize
  {
    if !portrait then
      if screenHeight < SmallHeight then FifthOf(baseSize)
      else if screenHeight < MediumHeight then Exact(Saturate(HalvesTowardZero(baseSize, 1)))
      else Exact(baseSize)
    else
      if screenHeight < SmallHeight then Exact(baseSize)
      else if screenHeight < MediumHeight then Exact(Saturate(HalvesTowardZero(baseSize, 1)))
      else FifthOf(baseSize)
  }

  /** Portrait and landscape swap their outer classes and share the middle one. */
  lemma HeightOrientationsMirror(screenHeight: int, baseSize: int)
    requires IsInt(baseSize)
    ensures screenHeight < SmallHeight ==>
      CustomHeight(screenHeight, true, baseSize) == CustomHeight(MediumHeight, false, baseSize)
    ensures MediumHeight <= screenHeight ==>
      CustomHeight(screenHeight, false, baseSize) == CustomHeight(0, true, baseSize)
    ensures SmallHeight <= screenHeight < MediumHeight ==>
      CustomHeight(screenHeight, true, baseSize) == CustomHeight(screenHeight, false, baseSize)
  {
  }
}

=== FILE: search_screen.dfy ===
/**
 * `SearchScreen`: the query field's handler, the name/year and up/down sort
 * buttons with the helpers that re-sort a displayed list, the one-time fetch
 * when connectivity first becomes available, and the render priority.
 *
 * The screen's displayed lists are nullable. The option titles are string
 * resources, passed in as `labels`. The two sort selectors are ints that the
 * buttons only ever set to 0 or 1; they are modelled as `SortKey` (0 = name,
 * 1 = year) and `Direction` (0 = ascending, 1 = descending).
 */
module SearchScreen {
  import opened Wrappers
  import opened Text
  import opened Seqs
  import opened Entities
  import opened Remote
  import opened Sorting
  import opened Render
  import VM = SearchViewModel

  datatype Screen = Screen(
    characters: Option<seq<Character>>,
    planets: Option<seq<Planet>>,
    ships: Option<seq<Ship>>,
    key: SortKey,
    dir: Direction,
    isConnected: bool)

  /** The screen's state before any event: empty lists, name order,
      ascending, not yet connected. */
  const Initial := Screen(Some([]), Some([]), Some([]), ByName, Ascending, false)

  // ----- sort helpers -----

  /** `sortCharactersNameAscendant` / `sortCharactersNameDescendant`: the
      displayed characters replaced by their sorted copy; a null list stays null. */
  function SortCharactersName(screen: Screen, dir: Direction): (r: Screen)
    ensures r.characters.None? <==> screen.characters.None?
    ensures r.characters.Some? ==> IsStableSortOf(r.characters.value, screen.characters.value, CharacterName, dir)
    ensures r == screen.(characters := r.characters)
  {
    screen.(characters := if dir == Ascending then SortCharactersByNameAscendant(screen.characters)
                          else SortCharactersByNameDescendant(screen.characters))
  }

  /** `sortPlanetsNameAscendant` / `sortPlanetsNameDescendant`. */
  function SortPlanetsName(screen: Screen, dir: Direction): (r: Screen)
    ensures r.planets.None? <==> screen.planets.None?
    ensures r.planets.Some? ==> IsStableSortOf(r.planets.value, screen.planets.value, PlanetName, dir)
    ensures r == screen.(planets := r.planets)
  {
    screen.(planets := if dir == Ascending then SortPlanetsByNameAscendant(screen.planets)
                       else SortPlanetsByNameDescendant(screen.planets))
  }

  /** `sortShipsNameAscendant` / `sortShipsNameDescendant`. */
  function SortShipsName(screen: Screen, dir: Direction): (r: Screen)
    ensures r.ships.None? <==> screen.ships.None?
    ensures r.ships.Some? ==> IsStableSortOf(r.ships.value, screen.ships.value, ShipName, dir)
    ensures r == screen.(ships := r.ships)
  {
    screen.(ships := if dir == Ascending then SortVehiclesByNameAscendant(screen.ships)
                     else SortVehiclesByNameDescendant(screen.ships))
  }

  /** Sorting the displayed list of the selected option by name: the arrow
      handlers test characters, then planets, then ships, and an option that
      is none of them sorts nothing. */
  function SortSelected(screen: Screen, labels: Labels, option: string, dir: Direction): (r: Screen)
    ensures option == labels.characters ==>
      r == screen.(characters := r.characters)
      && (r.characters.None? <==> screen.characters.None?)
      && (r.characters.Some? ==> IsStableSortOf(r.characters.value, screen.characters.value, CharacterName, dir))
    ensures option != labels.characters && option == labels.planets ==>
      r == screen.(planets := r.planets)
      && (r.planets.None? <==> screen.planets.None?)
      && (r.planets.Some? ==> IsStableSortOf(r.planets.value, screen.planets.value, PlanetName, dir))
    ensures option != labels.characters && option != labels.planets && option == labels.ships ==>
      r == screen.(ships := r.ships)
      && (r.ships.None? <==> screen.ships.None?)
      && (r.ships.Some? ==> IsStableSortOf(r.ships.value, screen.ships.value, ShipName, dir))
    ensures option != labels.characters && option != labels.planets && option != labels.ships ==> r == screen
  {
    if option == labels.characters then SortCharactersName(screen, dir)
    else if option == labels.planets then SortPlanetsName(screen, dir)
    else if option == labels.ships then SortShipsName(screen, dir)
    else screen
  }

  /** Re-sorting an already sorted list changes nothing, so a second press of
      the same direction leaves the screen as the first left it. */
  lemma SortSelectedIdempotent(screen: Screen, labels: Labels, option: string, dir: Direction)
    ensures SortSelected(SortSelected(screen, labels, option, dir), labels, option, dir)
         == SortSelected(screen, labels, option, dir)
  {
    if option == labels.characters {
      SortNullableIdempotent(screen.characters, CharacterName, dir);
    } else if option == labels.planets {
      SortNullableIdempotent(screen.planets, PlanetName, dir);
    } else if option == labels.ships {
      SortNullableIdempotent(screen.ships, ShipName, dir);
    }
  }

  // ----- buttons -----

  /** The "name" and "year" buttons only record the key; nothing is re-sorted. */
  function SelectKey(screen: Screen, key: SortKey): (r: Screen)
    ensures r.key == key
    ensures r.characters == screen.characters && r.planets == screen.planets && r.ships == screen.ships
    ensures r.dir == screen.dir && r.isConnected == screen.isConnected
  {
    screen.(key := key)
  }

  /** The up (ascending) and down (descending) buttons: record the direction,
      and re-sort the selected option's list only while the key is the name. */
  function SelectDirection(screen: Screen, labels: Labels, option: string, dir: Direction): (r: Screen)
    ensures r.dir == dir && r.key == screen.key && r.isConnected == screen.isConnected
    ensures screen.key == ByYear ==> r == screen.(dir := dir)
    ensures screen.key == ByName && option == labels.characters ==>
      r == screen.(dir := dir, characters := r.characters)
      && (r.characters.None? <==> screen.characters.None?)
      && (r.characters.Some? ==> screen.characters.Some? && IsStableSortOf(r.characters.value, screen.characters.value, CharacterName, dir))
    ensures screen.key == ByName && option != labels.characters && option == labels.planets ==>
      r == screen.(dir := dir, planets := r.planets)
      && (r.planets.None? <==> screen.planets.None?)
      && (r.planets.Some? ==> screen.planets.Some? && IsStableSortOf(r.planets.value, screen.planets.value, PlanetName, dir))
    ensures screen.key == ByName && option != labels.characters && option != labels.planets && option == labels.ships ==>
      r == screen.(dir := dir, ships := r.ships)
      && (r.ships.None? <==> screen.ships.None?)
      && (r.ships.Some? ==> screen.ships.Some? && IsStableSortOf(r.ships.value, screen.ships.value, ShipName, dir))
  {
    var directed := screen.(dir := dir);
    if screen.key == ByName then SortSelected(directed, labels, option, dir) else directed
  }

  // ----- query -----

  /** `list?.clear(); found?.let { list?.addAll(it) }`: a null list stays
      null, a null result leaves the list empty. */
  function Refill<T>(list: Option<seq<T>>, found: Option<seq<T>>): (r: Option<seq<T>>)
    ensures r.None? <==> list.None?
    ensures r.Some? ==> r.value == found.GetOr([])
  {
    if list.Some? then Some(found.GetOr([])) else None
  }

  /** The query field's `onValueChange`: the selected option's list becomes
      the view model's search result for the new text, re-sorted while the
      key is the name. `saved` is the saved full character list the
      character search falls back to. */
  function QueryChanged(screen: Screen, vm: Option<VM.Vm>, saved: Option<seq<Character>>,
                        labels: Labels, option: string, query: string): (r: Screen)
    ensures r.key == screen.key && r.dir == screen.dir && r.isConnected == screen.isConnected
    ensures option == labels.characters ==>
      && r.planets == screen.planets && r.ships == screen.ships
      && (r.characters.None? <==> screen.characters.None?)
      && var found := if vm.Some? then VM.SearchCharactersByName(vm.value, saved, query).GetOr([]) else [];
         && (r.characters.Some? && screen.key == ByName ==> IsStableSortOf(r.characters.value, found, CharacterName, screen.dir))
         && (r.characters.Some? && screen.key == ByYear ==> r.characters.value == found)
    ensures option != labels.characters && option == labels.planets ==>
      && r.characters == screen.characters && r.ships == screen.ships
      && (r.planets.None? <==> screen.planets.None?)
      && var found := if vm.Some? then VM.SearchPlanetsByName(vm.value, query).GetOr([]) else [];
         && (r.planets.Some? && screen.key == ByName ==> IsStableSortOf(r.planets.value, found, PlanetName, screen.dir))
         && (r.planets.Some? && screen.key == ByYear ==> r.planets.value == found)
    ensures option != labels.characters && option != labels.planets && option == labels.ships ==>
      && r.characters == screen.characters && r.planets == screen.planets
      && (r.ships.None? <==> screen.ships.None?)
      && var found := if vm.Some? then VM.SearchShipsByName(vm.value, query).GetOr([]) else [];
         && (r.ships.Some? && screen.key == ByName ==> IsStableSortOf(r.ships.value, found, ShipName, screen.dir))
         && (r.ships.Some? && screen.key == ByYear ==> r.ships.value == found)
    ensures option != labels.characters && option != labels.planets && option != labels.ships ==> r == screen
  {
    if option == labels.characters then
      var found := if vm.Some? then VM.SearchCharactersByName(vm.value, saved, query) else None;
      var refilled := screen.(characters := Refill(screen.characters, found));
      if screen.key == ByName then SortCharactersName(refilled, screen.dir) else refilled
    else if option == labels.planets then
      var found := if vm.Some? then VM.SearchPlanetsByName(vm.value, query) else None;
      var refilled := screen.(planets := Refill(screen.planets, found));
      if screen.key == ByName then SortPlanetsName(refilled, screen.dir) else refilled
    else if option == labels.ships then
      var found := if vm.Some? then VM.SearchShipsByName(vm.value, query) else None;
      var refilled := screen.(ships := Refill(screen.ships, found));
      if screen.key == ByName then SortShipsName(refilled, screen.dir) else refilled
    else screen
  }

  /** After a query every displayed character contains the query text, and
      every character of the search's source that does is displayed, as
      often as the source holds it. */
  lemma QueryShowsExactlyTheMatches(screen: Screen, vm: VM.Vm, saved: Option<seq<Character>>,
                                    labels: Labels, query: string, source: seq<Character>)
    requires screen.characters.Some?
    requires VM.SearchCharactersByName(vm, saved, query).Some?
    requires IsFilterOf(VM.SearchCharactersByName(vm, saved, query).value, source, VM.NameQuery(query))
    ensures var shown := QueryChanged(screen, Some(vm), saved, labels, labels.characters, query).characters.value;
      && (forall k :: 0 <= k < |shown| ==> ContainsIgnoreCase(shown[k].name, query))
      && (forall c: Character :: ContainsIgnoreCase(c.name, query) ==> multiset(shown)[c] == multiset(source)[c])
  {
    var found := VM.SearchCharactersByName(vm, saved, query).value;
    var shown := QueryChanged(screen, Some(vm), saved, labels, labels.characters, query).characters.value;
    assert multiset(shown) == multiset(found);
    forall k | 0 <= k < |shown|
      ensures ContainsIgnoreCase(shown[k].name, query)
    {
      assert shown[k] in multiset(found);
      var j :| 0 <= j < |found| && found[j] == shown[k];
      assert VM.NameQuery(query)(found[j]);
    }
    forall c: Character | ContainsIgnoreCase(c.name, query)
      ensures multiset(shown)[c] == multiset(source)[c]
    {
      assert VM.NameQuery(query)(c);
    }
  }

  // ----- connectivity -----

  /** The fetch dispatched the first time the network status reads Available
      (the view model, and with it the status, may be null). The titles are
      checked in the source's order: characters, ships, planets. */
  function ConnectGate(screen: Screen, net: Option<Status>, labels: Labels, option: string): (r: (Screen, Option<Kind>))
    ensures r.0 == screen.(isConnected := r.0.isConnected)
    ensures r.0.isConnected <==> screen.isConnected || net == Some(Available)
    ensures r.1.Some? ==> net == Some(Available) && !screen.isConnected
    ensures r.1 == Some(Characters) <==> net == Some(Available) && !screen.isConnected && option == labels.characters
    ensures r.1 == Some(Ships) <==>
      net == Some(Available) && !screen.isConnected && option != labels.characters && option == labels.ships
    ensures r.1 == Some(Planets) <==>
      net == Some(Available) && !screen.isConnected && option != labels.characters && option != labels.ships
      && option == labels.planets
  {
    if net == Some(Available) && !screen.isConnected then
      var dispatch :=
        if option == labels.characters then Some(Characters)
        else if option == labels.ships then Some(Ships)
        else if option == labels.planets then Some(Planets)
        else None;
      (screen.(isConnected := true), dispatch)
    else (screen, None)
  }

  /** The fetches dispatched over a run of recompositions, one status each. */
  function Dispatches(screen: Screen, statuses: seq<Option<Status>>, labels: Labels, option: string): nat
    decreases |statuses|
  {
    if |statuses| == 0 then 0
    else
      var step := ConnectGate(screen, statuses[0], labels, option);
      (if step.1.Some? then 1 else 0) + Dispatches(step.0, statuses[1..], labels, option)
  }

  /** However the network comes and goes, the screen dispatches at most one
      fetch, and none once it has connected. */
  lemma {:induction false} GateFiresAtMostOnce(screen: Screen, statuses: seq<Option<Status>>, labels: Labels, option: string)
    ensures Dispatches(screen, statuses, labels, option) <= 1
    ensures screen.isConnected ==> Dispatches(screen, statuses, labels, option) == 0
    decreases |statuses|
  {
    if |statuses| > 0 {
      var step := ConnectGate(screen, statuses[0], labels, option);
      GateFiresAtMostOnce(step.0, statuses[1..], labels, option);
      if step.1.Some? {
        assert step.0.isConnected;
      }
    }
  }

  // ----- rendering -----

  /** What the screen body shows for the current view model. */
  function RenderSearch(vm: Option<VM.Vm>): (r: View)
    ensures vm.None? ==> r == Blank
    ensures vm.Some? ==> r == Priority(Some(vm.value.isLoading), Some(vm.value.isError), Some(vm.value.isSuccess),
                                     Some(vm.value.errorMessage))
  {
    if vm.None? then Priority(None, None, None, None)
    else Priority(Some(vm.value.isLoading), Some(vm.value.isError), Some(vm.value.isSuccess), Some(vm.value.errorMessage))
  }

  /** A fetch made offline puts "No Internet Connection" on screen. */
  lemma OfflineFetchShowsError(vm: VM.Vm, c: Reply<seq<Character>>, p: Reply<seq<Planet>>, s: Reply<seq<Ship>>)
    ensures RenderSearch(Some(VM.GetCharacters(vm, Unavailable, c).vm)) == ErrorText(NoInternet)
    ensures RenderSearch(Some(VM.GetPlanets(vm, Unavailable, p).vm)) == ErrorText(NoInternet)
    ensures RenderSearch(Some(VM.GetVehicles(vm, Unavailable, s).vm)) == ErrorText(NoInternet)
  {
  }

  /** A delivered planet or ship list is shown as results. */
  lemma DeliveredListShowsContent(vm: VM.Vm, p: Reply<seq<Planet>>, s: Reply<seq<Ship>>)
    requires Delivers(p) && Delivers(s)
    ensures RenderSearch(Some(VM.GetPlanets(vm, Available, p).vm)) == Content
    ensures RenderSearch(Some(VM.GetVehicles(vm, Available, s).vm)) == Content
  {
  }
}

=== FILE: search_view_model.dfy ===
/**
 * `SearchViewModel`: the list fetches of the search screen, the observers
 * that turn each fetch state into the shared `isLoading` / `isSuccess` /
 * `isError` / `errorMessage` flags and the stored lists, the name searches
 * and the fetch chosen at construction.
 *
 * A handler call is one pure transition. The repository's answer is the
 * `reply` parameter; `repositoryCalled` says whether the call was made at all.
 */
module SearchViewModel {
  import opened Wrappers
  import opened Text
  import opened Seqs
  import opened Entities
  import opened Remote

  /** The state of one list fetch. */
  datatype ListState<T> = Success(items: T) | Error(message: string)

  datatype Vm = Vm(
    characterState: ListState<seq<Character>>,
    planetState: ListState<seq<Planet>>,
    vehicleState: ListState<seq<Ship>>,
    speciesState: ListState<seq<SpeciesItem>>,
    isLoading: bool,
    isSuccess: bool,
    isError: bool,
    errorMessage: string,
    allCharacters: Option<seq<Character>>,
    allPlanets: Option<seq<Planet>>,
    allVehicles: Option<seq<Ship>>,
    allSpecies: Option<seq<SpeciesItem>>,
    filteredCharacters: seq<Character>)

  /** The fallback for an exception without a message. */
  const UnknownError := "Unknown error"

  /** A freshly constructed view model, before `init` dispatches a fetch. */
  const Initial := Vm(Error(UnknownError), Error(UnknownError), Error(UnknownError), Error(UnknownError),
                      false, false, false, "", None, None, None, None, [])

  /** The result of one `get*` call: the new state, whether the repository
      was called, and whether the observer asked for the species list. */
  datatype Step = Step(vm: Vm, repositoryCalled: bool, speciesRequested: bool)

  /** The state a fetch stores: the connectivity gate, then the three
      outcomes of the repository call. A failed response keeps its message
      as is, with no fallback. */
  function Outcome<T>(net: Status, reply: Reply<T>): ListState<T> {
    if net == Unavailable then Error(NoInternet)
    else if Delivers(reply) then Success(reply.body.value)
    else if reply.Response? then Error(reply.message)
    else Error(reply.exceptionMessage.GetOr(UnknownError))
  }

  /** Every `get*` starts by raising `isLoading`; the connectivity gate
      lowers it again before the observer runs. */
  function Started(vm: Vm, net: Status): Vm {
    vm.(isLoading := net != Unavailable)
  }

  /** The observer's reaction to any Error state. */
  function ObserveError(vm: Vm, message: string): Vm {
    vm.(errorMessage := message, isError := true, isLoading := false)
  }

  // ----- characters -----

  /** `observeCharacters`: a Success stores the list, clears loading and
      error, and asks for the species; it leaves `isSuccess` alone. */
  function ObserveCharacters(vm: Vm): (r: (Vm, bool)) {
    match vm.characterState
    case Success(cs) =>
      (vm.(allCharacters := Some(cs), isLoading := false, isError := false, errorMessage := ""), true)
    case Error(m) => (ObserveError(vm, m), false)
  }

  /** `getCharacters()`, including the observer its `finally` block starts. */
  function GetCharacters(vm: Vm, net: Status, reply: Reply<seq<Character>>): (r: Step)
    ensures r.repositoryCalled <==> net == Available
    ensures net == Unavailable ==>
      && r.vm.characterState == Error(NoInternet) && r.vm.errorMessage == NoInternet
      && r.vm.isError && !r.vm.isLoading && !r.speciesRequested
    ensures net == Available && Delivers(reply) ==>
      && r.vm.characterState == Success(reply.body.value)
      && r.vm.allCharacters == reply.body
      && !r.vm.isLoading && !r.vm.isError && r.vm.errorMessage == ""
      && r.vm.isSuccess == vm.isSuccess && r.speciesRequested
    ensures net == Available && reply.Response? && !Delivers(reply) ==>
      r.vm.characterState == Error(reply.message) && r.vm.isError && r.vm.errorMessage == reply.message
    ensures net == Available && reply.Thrown? ==>
      r.vm.characterState == Error(reply.exceptionMessage.GetOr(UnknownError)) && r.vm.isError
    ensures r.vm.characterState.Error? ==>
      && r.vm.errorMessage == r.vm.characterState.message
      && r.vm.isError && !r.vm.isLoading && !r.speciesRequested
      && r.vm.allCharacters == vm.allCharacters && r.vm.isSuccess == vm.isSuccess
    ensures && r.vm.planetState == vm.planetState && r.vm.allPlanets == vm.allPlanets
            && r.vm.vehicleState == vm.vehicleState && r.vm.allVehicles == vm.allVehicles
            && r.vm.speciesState == vm.speciesState && r.vm.allSpecies == vm.allSpecies
            && r.vm.filteredCharacters == vm.filteredCharacters
  {
    var observed := ObserveCharacters(Started(vm, net).(characterState := Outcome(net, reply)));
    Step(observed.0, net == Available, observed.1)
  }

  // ----- planets -----

  /** `observePlanets`: a Success stores the list and raises `isSuccess`;
      it does not clear `errorMessage`. */
  function ObservePlanets(vm: Vm): Vm {
    match vm.planetState
    case Success(ps) => vm.(allPlanets := Some(ps), isLoading := false, isError := false, isSuccess := true)
    case Error(m) => ObserveError(vm, m)
  }

  /** `getPlanets()`, including its observer. */
  function GetPlanets(vm: Vm, net: Status, reply: Reply<seq<Planet>>): (r: Step)
    ensures r.repositoryCalled <==> net == Available
    ensures !r.speciesRequested
    ensures net == Unavailable ==>
      r.vm.planetState == Error(NoInternet) && r.vm.errorMessage == NoInternet && r.vm.isError && !r.vm.isLoading
    ensures net == Available && Delivers(reply) ==>
      && r.vm.planetState == Success(reply.body.value) && r.vm.allPlanets == reply.body
      && r.vm.isSuccess && !r.vm.isError && !r.vm.isLoading && r.vm.errorMessage == vm.errorMessage
    ensures net == Available && reply.Response? && !Delivers(reply) ==>
      r.vm.planetState == Error(reply.message) && r.vm.isError && r.vm.errorMessage == reply.message
    ensures net == Available && reply.Thrown? ==>
      r.vm.planetState == Error(reply.exceptionMessage.GetOr(UnknownError)) && r.vm.isError
    ensures r.vm.planetState.Error? ==>
      && r.vm.errorMessage == r.vm.planetState.message
      && r.vm.isError && !r.vm.isLoading && r.vm.allPlanets == vm.allPlanets && r.vm.isSuccess == vm.isSuccess
    ensures && r.vm.characterState == vm.characterState && r.vm.allCharacters == vm.allCharacters
            && r.vm.vehicleState == vm.vehicleState && r.vm.allVehicles == vm.allVehicles
            && r.vm.speciesState == vm.speciesState && r.vm.allSpecies == vm.allSpecies
            && r.vm.filteredCharacters == vm.filteredCharacters
  {
    Step(ObservePlanets(Started(vm, net).(planetState := Outcome(net, reply))), net == Available, false)
  }

  // ----- ships -----

  /** `observeVehicles`: the same reactions as for planets. */
  function ObserveVehicles(vm: Vm): Vm {
    match vm.vehicleState
    case Success(vs) => vm.(allVehicles := Some(vs), isLoading := false, isError := false, isSuccess := true)
    case Error(m) => ObserveError(vm, m)
  }

  /** `getVehicles()`, including its observer. */
  function GetVehicles(vm: Vm, net: Status, reply: Reply<seq<Ship>>): (r: Step)
    ensures r.repositoryCalled <==> net == Available
    ensures !r.speciesRequested
    ensures net == Unavailable ==>
      r.vm.vehicleState == Error(NoInternet) && r.vm.errorMessage == NoInternet && r.vm.isError && !r.vm.isLoading
    ensures net == Available && Delivers(reply) ==>
      && r.vm.vehicleState == Success(reply.body.value) && r.vm.allVehicles == reply.body
      && r.vm.isSuccess && !r.vm.isError && !r.vm.isLoading && r.vm.errorMessage == vm.errorMessage
    ensures net == Available && reply.Response? && !Delivers(reply) ==>
      r.vm.vehicleState == Error(reply.message) && r.vm.isError && r.vm.errorMessage == reply.message
    ensures net == Available && reply.Thrown? ==>
      r.vm.vehicleState == Error(reply.exceptionMessage.GetOr(UnknownError)) && r.vm.isError
    ensures r.vm.vehicleState.Error? ==>
      && r.vm.errorMessage == r.vm.vehicleState.message
      && r.vm.isError && !r.vm.isLoading && r.vm.allVehicles == vm.allVehicles && r.vm.isSuccess == vm.isSuccess
    ensures && r.vm.characterState == vm.characterState && r.vm.allCharacters == vm.allCharacters
            && r.vm.planetState == vm.planetState && r.vm.allPlanets == vm.allPlanets
            && r.vm.speciesState == vm.speciesState && r.vm.allSpecies == vm.allSpecies
            && r.vm.filteredCharacters == vm.filteredCharacters
  {
    Step(ObserveVehicles(Started(vm, net).(vehicleState := Outcome(net, reply))), net == Available, false)
  }

  // ----- species -----

  /** `observeSpecies`: an Error also lowers `isSuccess`; a Success stores
      the list, clears the error and raises `isSuccess`. */
  function ObserveSpecies(vm: Vm): Vm {
    match vm.speciesState
    case Success(ss) =>
      vm.(allSpecies := Some(ss), isLoading := false, isError := false, errorMessage := "", isSuccess := true)
    case Error(m) => ObserveError(vm, m).(isSuccess := false)
  }

  /** `getSpecies()`, including its observer. */
  function GetSpecies(vm: Vm, net: Status, reply: Reply<seq<SpeciesItem>>): (r: Step)
    ensures r.repositoryCalled <==> net == Available
    ensures !r.speciesRequested
    ensures net == Unavailable ==>
      && r.vm.speciesState == Error(NoInternet) && r.vm.errorMessage == NoInternet
      && r.vm.isError && !r.vm.isLoading && !r.vm.isSuccess
    ensures net == Available && Delivers(reply) ==>
      && r.vm.speciesState == Success(reply.body.value) && r.vm.allSpecies == reply.body
      && r.vm.isSuccess && !r.vm.isError && !r.vm.isLoading && r.vm.errorMessage == ""
    ensures r.vm.speciesState.Error? ==>
      r.vm.isError && !r.vm.isLoading && !r.vm.isSuccess && r.vm.errorMessage == r.vm.speciesState.message
    ensures net == Available && reply.Response? && !Delivers(reply) ==> r.vm.speciesState == Error(reply.message)
    ensures net == Available && reply.Thrown? ==>
      r.vm.speciesState == Error(reply.exceptionMessage.GetOr(UnknownError))
    ensures && r.vm.characterState == vm.characterState && r.vm.allCharacters == vm.allCharacters
            && r.vm.planetState == vm.planetState && r.vm.allPlanets == vm.allPlanets
            && r.vm.vehicleState == vm.vehicleState && r.vm.allVehicles == vm.allVehicles
            && r.vm.filteredCharacters == vm.filteredCharacters
  {
    Step(ObserveSpecies(Started(vm, net).(speciesState := Outcome(net, reply))), net == Available, false)
  }

  /** Offline, a fetch ends the same way whatever the repository would have
      answered: the reply is never consulted. */
  lemma OfflineIgnoresReply(vm: Vm, c1: Reply<seq<Character>>, c2: Reply<seq<Character>>,
                            p1: Reply<seq<Planet>>, p2: Reply<seq<Planet>>,
                            v1: Reply<seq<Ship>>, v2: Reply<seq<Ship>>,
                            s1: Reply<seq<SpeciesItem>>, s2: Reply<seq<SpeciesItem>>)
    ensures GetCharacters(vm, Unavailable, c1) == GetCharacters(vm, Unavailable, c2)
    ensures GetPlanets(vm, Unavailable, p1) == GetPlanets(vm, Unavailable, p2)
    ensures GetVehicles(vm, Unavailable, v1) == GetVehicles(vm, Unavailable, v2)
    ensures GetSpecies(vm, Unavailable, s1) == GetSpecies(vm, Unavailable, s2)
  {
  }

  /** The character list only shows as a success once the species fetch it
      triggers has succeeded too; then no error is left on screen. */
  lemma CharactersThenSpecies(vm: Vm, chars: Reply<seq<Character>>, species: Reply<seq<SpeciesItem>>)
    requires Delivers(chars) && Delivers(species)
    ensures var first := GetCharacters(vm, Available, chars);
      && first.speciesRequested
      && var second := GetSpecies(first.vm, Available, species);
      && second.vm.isSuccess && !second.vm.isError && !second.vm.isLoading
      && second.vm.errorMessage == "" && second.vm.allCharacters == chars.body
      && second.vm.allSpecies == species.body
  {
  }

  // ----- search -----

  /** The name test of every search: `it.name.contains(query, ignoreCase = true)`. */
  function NameQuery(query: string): Character -> bool {
    (c: Character) => ContainsIgnoreCase(c.name, query)
  }

  function PlanetQuery(query: string): Planet -> bool {
    (p: Planet) => ContainsIgnoreCase(p.name, query)
  }

  function ShipQuery(query: string): Ship -> bool {
    (s: Ship) => ContainsIgnoreCase(s.name, query)
  }

  /** `searchCharactersByName(name)`. The source is the active filter result
      if it is non-empty, else the fetched list if it is non-null and
      non-empty, else the screen's saved full list (`saved`). */
  function SearchCharactersByName(vm: Vm, saved: Option<seq<Character>>, query: string): (r: Option<seq<Character>>)
    ensures r.None? <==> |vm.filteredCharacters| == 0 && IsNullOrEmpty(vm.allCharacters) && saved.None?
    ensures |vm.filteredCharacters| > 0 ==>
      r.Some? && IsFilterOf(r.value, vm.filteredCharacters, NameQuery(query))
    ensures |vm.filteredCharacters| == 0 && !IsNullOrEmpty(vm.allCharacters) ==>
      r.Some? && IsFilterOf(r.value, vm.allCharacters.value, NameQuery(query))
    ensures |vm.filteredCharacters| == 0 && IsNullOrEmpty(vm.allCharacters) && saved.Some? ==>
      r.Some? && IsFilterOf(r.value, saved.value, NameQuery(query))
  {
    if |vm.filteredCharacters| == 0 then
      var characters := if IsNullOrEmpty(vm.allCharacters) then saved else vm.allCharacters;
      match characters
      case None => None
      case Some(cs) =>
        KeepIsFilter(cs, NameQuery(query));
        Some(Keep(cs, NameQuery(query)))
    else
      KeepIsFilter(vm.filteredCharacters, NameQuery(query));
      Some(Keep(vm.filteredCharacters, NameQuery(query)))
  }

  /** `searchPlanetsByName(name)` over the fetched planets. */
  function SearchPlanetsByName(vm: Vm, query: string): (r: Option<seq<Planet>>)
    ensures r.None? <==> vm.allPlanets.None?
    ensures r.Some? ==> IsFilterOf(r.value, vm.allPlanets.value, PlanetQuery(query))
  {
    match vm.allPlanets
    case None => None
    case Some(ps) =>
      KeepIsFilter(ps, PlanetQuery(query));
      Some(Keep(ps, PlanetQuery(query)))
  }

  /** `searchShipsByName(name)` over the fetched ships. */
  function SearchShipsByName(vm: Vm, query: string): (r: Option<seq<Ship>>)
    ensures r.None? <==> vm.allVehicles.None?
    ensures r.Some? ==> IsFilterOf(r.value, vm.allVehicles.value, ShipQuery(query))
  {
    match vm.allVehicles
    case None => None
    case Some(ss) =>
      KeepIsFilter(ss, ShipQuery(query));
      Some(Keep(ss, ShipQuery(query)))
  }

  /** The empty query keeps every character, planet and ship of a list. */
  lemma EmptyQueryKeepsAll(cs: seq<Character>, ps: seq<Planet>, ss: seq<Ship>)
    ensures Keep(cs, NameQuery("")) == cs
    ensures Keep(ps, PlanetQuery("")) == ps
    ensures Keep(ss, ShipQuery("")) == ss
  {
    forall s: string ensures ContainsIgnoreCase(s, "") { ContainsEmpty(s); }
    KeepAll(cs, NameQuery(""));
    KeepAll(ps, PlanetQuery(""));
    KeepAll(ss, ShipQuery(""));
  }

  /** The empty query matches every name, so each search returns its whole source. */
  lemma EmptyQueryReturnsSource(vm: Vm, saved: Option<seq<Character>>)
    ensures |vm.filteredCharacters| > 0 ==> SearchCharactersByName(vm, saved, "") == Some(vm.filteredCharacters)
    ensures |vm.filteredCharacters| == 0 && !IsNullOrEmpty(vm.allCharacters) ==>
      SearchCharactersByName(vm, saved, "") == vm.allCharacters
    ensures |vm.filteredCharacters| == 0 && IsNullOrEmpty(vm.allCharacters) ==>
      SearchCharactersByName(vm, saved, "") == saved
    ensures SearchPlanetsByName(vm, "") == vm.allPlanets
    ensures SearchShipsByName(vm, "") == vm.allVehicles
  {
    var ps, ss := vm.allPlanets.GetOr([]), vm.allVehicles.GetOr([]);
    EmptyQueryKeepsAll(vm.filteredCharacters, ps, ss);
    EmptyQueryKeepsAll(vm.allCharacters.GetOr([]), ps, ss);
    EmptyQueryKeepsAll(saved.GetOr([]), ps, ss);
  }

  // ----- construction -----

  /** `init`: fetch the kind named by the selected option, and only when
      the screen's list of that kind is null or empty. */
  function InitialFetch(option: string, characters: Option<seq<Character>>,
                        planets: Option<seq<Planet>>, ships: Option<seq<Ship>>): (r: Option<Kind>)
    ensures r == Some(Characters) <==> option == LiteralLabels.characters && IsNullOrEmpty(characters)
    ensures r == Some(Planets) <==> option == LiteralLabels.planets && IsNullOrEmpty(planets)
    ensures r == Some(Ships) <==> option == LiteralLabels.ships && IsNullOrEmpty(ships)
  {
    if option == LiteralLabels.characters then
      if IsNullOrEmpty(characters) then Some(Characters) else None
    else if option == LiteralLabels.planets then
      if IsNullOrEmpty(planets) then Some(Planets) else None
    else if option == LiteralLabels.ships then
      if IsNullOrEmpty(ships) then Some(Ships) else None
    else None
  }
}

=== FILE: seqs.dfy ===
/**
 * Generic facts about the Kotlin collection operations the model uses:
 * `filter` (order-preserving selection) and `reversed`.
 */
module Seqs {

  /** `r` can be obtained from `s` by deleting elements, keeping order. */
  predicate IsSubseq<T(==)>(r: seq<T>, s: seq<T>)
    decreases |s|
  {
    |r| == 0 || (|s| > 0 && (if r[0] == s[0] then IsSubseq(r[1..], s[1..]) else IsSubseq(r, s[1..])))
  }

  /** `r` is exactly what `s.filter(p)` must be: an order-preserving
      subsequence of `s` that holds only elements passing `p`, and holds
      every passing element as many times as `s` does. */
  ghost predicate IsFilterOf<T(!new)>(r: seq<T>, s: seq<T>, p: T -> bool) {
    && IsSubseq(r, s)
    && (forall k :: 0 <= k < |r| ==> p(r[k]))
    && (forall x :: p(x) ==> multiset(r)[x] == multiset(s)[x])
  }

  /** Kotlin's `s.filter(p)`. */
  function Keep<T>(s: seq<T>, p: T -> bool): (r: seq<T>)
    ensures |r| <= |s|
  {
    if |s| == 0 then []
    else
      var rest := Keep(s[1..], p);
      if p(s[0]) then [s[0]] + rest else rest
  }

  /** `Keep` does what `filter` must. */
  lemma {:induction false} KeepIsFilter<T(!new)>(s: seq<T>, p: T -> bool)
    ensures IsFilterOf(Keep(s, p), s, p)
  {
    if |s| > 0 {
      KeepIsFilter(s[1..], p);
      KeepStep(s, p, Keep(s[1..], p));
    }
  }

  /** One step of `Keep`: the head of `s` is kept exactly when it passes. */
  lemma KeepStep<T(!new)>(s: seq<T>, p: T -> bool, rest: seq<T>)
    requires |s| > 0 && IsFilterOf(rest, s[1..], p)
    ensures IsFilterOf(if p(s[0]) then [s[0]] + rest else rest, s, p)
  {
    assert s == [s[0]] + s[1..];
    assert multiset(s) == multiset{s[0]} + multiset(s[1..]);
    var r := if p(s[0]) then [s[0]] + rest else rest;
    if p(s[0]) {
      assert r[1..] == rest;
      assert multiset(r) == multiset{s[0]} + multiset(rest);
    } else {
      if |rest| > 0 {
        assert p(rest[0]);
      }
      forall x | p(x)
        ensures multiset(r)[x] == multiset(s)[x]
      {
        assert x != s[0];
      }
    }
  }

  lemma {:induction false} SubseqMembers<T>(r: seq<T>, s: seq<T>)
    requires IsSubseq(r, s)
    ensures forall x :: x in r ==> x in s
    decreases |s|
  {
    if |r| > 0 {
      if r[0] == s[0] {
        SubseqMembers(r[1..], s[1..]);
        assert r == [r[0]] + r[1..];
      } else {
        SubseqMembers(r, s[1..]);
      }
    }
  }

  /** Every element of `s` that passes `p` is kept. */
  lemma KeepComplete<T(!new)>(s: seq<T>, p: T -> bool, x: T)
    requires x in s && p(x)
    ensures x in Keep(s, p)
  {
    KeepIsFilter(s, p);
    assert multiset(Keep(s, p))[x] == multiset(s)[x] > 0;
  }

  /** Filtering with a predicate every element passes changes nothing. */
  lemma {:induction false} KeepAll<T(!new)>(s: seq<T>, p: T -> bool)
    requires forall i :: 0 <= i < |s| ==> p(s[i])
    ensures Keep(s, p) == s
  {
    if |s| > 0 {
      KeepAll(s[1..], p);
      assert s == [s[0]] + s[1..];
    }
  }

  /** A subsequence of `t` is also one of `x` followed by `t`. */
  lemma {:induction false} SubseqPrepend<T>(r: seq<T>, t: seq<T>, x: T)
    requires IsSubseq(r, t)
    ensures IsSubseq(r, [x] + t)
    decreases |t|, 1
  {
    assert ([x] + t)[1..] == t;
    if |r| > 0 && r[0] == x {
      SubseqTail(r, t);
    }
  }

  /** Dropping the first element of a subsequence keeps it a subsequence. */
  lemma {:induction false} SubseqTail<T>(r: seq<T>, t: seq<T>)
    requires |r| > 0 && IsSubseq(r, t)
    ensures IsSubseq(r[1..], t)
    decreases |t|, 0
  {
    if r[0] == t[0] {
      SubseqPrepend(r[1..], t[1..], t[0]);
    } else {
      SubseqTail(r, t[1..]);
      SubseqPrepend(r[1..], t[1..], t[0]);
    }
    assert [t[0]] + t[1..] == t;
  }

  /** A stronger predicate keeps a subsequence of what a weaker one keeps. */
  lemma {:induction false} KeepMonotone<T(!new)>(s: seq<T>, p: T -> bool, q: T -> bool)
    requires forall x :: p(x) ==> q(x)
    ensures IsSubseq(Keep(s, p), Keep(s, q))
  {
    if |s| > 0 {
      KeepMonotone(s[1..], p, q);
      KeepHead(s, p);
      KeepHead(s, q);
      var a, b := Keep(s[1..], p), Keep(s[1..], q);
      if p(s[0]) {
        assert ([s[0]] + a)[1..] == a;
      } else if q(s[0]) {
        SubseqPrepend(a, b, s[0]);
      }
    }
  }

  /** Predicates that agree on `s` keep the same elements of `s`. */
  lemma {:induction false} KeepCongruent<T(!new)>(s: seq<T>, p: T -> bool, q: T -> bool)
    requires forall i :: 0 <= i < |s| ==> p(s[i]) == q(s[i])
    ensures Keep(s, p) == Keep(s, q)
  {
    if |s| > 0 {
      KeepCongruent(s[1..], p, q);
    }
  }

  /** Being a filter depends only on which elements pass. */
  lemma IsFilterOfCongruent<T(!new)>(r: seq<T>, s: seq<T>, p: T -> bool, q: T -> bool)
    requires forall x :: p(x) == q(x)
    requires IsFilterOf(r, s, p)
    ensures IsFilterOf(r, s, q)
  {
  }

  /** `Keep` unfolded once. */
  lemma KeepHead<T(!new)>(s: seq<T>, p: T -> bool)
    requires |s| > 0
    ensures Keep(s, p) == (if p(s[0]) then [s[0]] else []) + Keep(s[1..], p)
  {
  }

  /** Filtering distributes over concatenation. */
  lemma {:induction false} KeepAppend<T(!new)>(a: seq<T>, b: seq<T>, p: T -> bool)
    ensures Keep(a + b, p) == Keep(a, p) + Keep(b, p)
  {
    if |a| > 0 {
      KeepAppend(a[1..], b, p);
      var ab := a + b;
      assert ab[0] == a[0] && ab[1..] == a[1..] + b;
      KeepHead(ab, p);
      KeepHead(a, p);
    } else {
      assert a + b == b;
    }
  }

  /** Nothing passes, nothing is kept. */
  lemma KeepNone<T(!new)>(s: seq<T>, p: T -> bool)
    requires forall i :: 0 <= i < |s| ==> !p(s[i])
    ensures Keep(s, p) == []
  {
    var r := Keep(s, p);
    KeepIsFilter(s, p);
    if |r| > 0 {
      SubseqMembers(r, s);
    }
  }

  /** Kotlin's `s.reversed()`. */
  function Reverse<T>(s: seq<T>): (r: seq<T>)
    ensures |r| == |s|
    ensures forall i :: 0 <= i < |s| ==> r[i] == s[|s| - 1 - i]
  {
    if |s| == 0 then [] else Reverse(s[1..]) + [s[0]]
  }
}

=== FILE: sorting.dfy ===
/**
 * The name sorts of `Sorting`: Kotlin's `sortedBy { it.name }` and
 * `sortedByDescending { it.name }` for characters, planets and ships.
 * Both are stable sorts by `String.compareTo`; a null list gives null.
 * One generic stable insertion sort models all six.
 */
module Sorting {
  import opened Wrappers
  import opened Text
  import opened Seqs
  import opened Entities

  datatype Direction = Ascending | Descending

  /** `a` may precede `b` in `dir` order. */
  predicate InOrder(dir: Direction, a: string, b: string) {
    if dir == Ascending then Le(a, b) else Le(b, a)
  }

  lemma InOrderReflexive(dir: Direction, a: string)
    ensures InOrder(dir, a, a)
  {
    LeReflexive(a);
  }

  lemma InOrderTotal(dir: Direction, a: string, b: string)
    ensures InOrder(dir, a, b) || InOrder(dir, b, a)
  {
    LeTotal(a, b);
  }

  lemma InOrderTransitive(dir: Direction, a: string, b: string, c: string)
    requires InOrder(dir, a, b) && InOrder(dir, b, c)
    ensures InOrder(dir, a, c)
  {
    if dir == Ascending { LeTransitive(a, b, c); } else { LeTransitive(c, b, a); }
  }

  lemma InOrderAntisymmetric(dir: Direction, a: string, b: string)
    requires InOrder(dir, a, b) && InOrder(dir, b, a)
    ensures a == b
  {
    LeAntisymmetric(a, b);
  }

  /** Every earlier key may precede every later key. */
  ghost predicate SortedBy<T>(s: seq<T>, key: T -> string, dir: Direction) {
    forall i, j :: 0 <= i < j < |s| ==> InOrder(dir, key(s[i]), key(s[j]))
  }

  /** The items of `s` whose key is `k`, in their order in `s`. Stability
      means the sort leaves each such class unchanged. */
  function KeyClass<T(!new)>(s: seq<T>, key: T -> string, k: string): seq<T> {
    Keep(s, x => key(x) == k)
  }

  /** Insert `x` in front of the first item it may precede. */
  function Insert<T>(x: T, t: seq<T>, key: T -> string, dir: Direction): (r: seq<T>)
    ensures multiset(r) == multiset(t) + multiset{x}
  {
    if |t| == 0 then [x]
    else if InOrder(dir, key(x), key(t[0])) then
      assert t == [t[0]] + t[1..];
      [x] + t
    else
      assert t == [t[0]] + t[1..];
      [t[0]] + Insert(x, t[1..], key, dir)
  }

  /** An item in order with every item of a sorted list may go in front of it. */
  lemma ConsSorted<T>(h: T, t: seq<T>, key: T -> string, dir: Direction)
    requires SortedBy(t, key, dir)
    requires forall j :: 0 <= j < |t| ==> InOrder(dir, key(h), key(t[j]))
    ensures SortedBy([h] + t, key, dir)
  {
    var r := [h] + t;
    forall i, j | 0 <= i < j < |r|
      ensures InOrder(dir, key(r[i]), key(r[j]))
    {
      if i == 0 {
        assert r[j] == t[j - 1];
      } else {
        assert r[i] == t[i - 1] && r[j] == t[j - 1];
      }
    }
  }

  /** Every item of an insertion is the inserted item or an item of the list. */
  lemma InsertMember<T>(x: T, t: seq<T>, key: T -> string, dir: Direction, y: T)
    requires y in Insert(x, t, key, dir)
    ensures y == x || y in t
  {
    assert y in multiset(Insert(x, t, key, dir));
  }

  lemma {:induction false} InsertSorted<T>(x: T, t: seq<T>, key: T -> string, dir: Direction)
    requires SortedBy(t, key, dir)
    ensures SortedBy(Insert(x, t, key, dir), key, dir)
  {
    if |t| > 0 {
      if InOrder(dir, key(x), key(t[0])) {
        forall j | 0 <= j < |t|
          ensures InOrder(dir, key(x), key(t[j]))
        {
          if j > 0 {
            InOrderTransitive(dir, key(x), key(t[0]), key(t[j]));
          }
        }
        ConsSorted(x, t, key, dir);
      } else {
        InOrderTotal(dir, key(x), key(t[0]));
        SortedTail(t, key, dir);
        InsertSorted(x, t[1..], key, dir);
        var rest := Insert(x, t[1..], key, dir);
        forall j | 0 <= j < |rest|
          ensures InOrder(dir, key(t[0]), key(rest[j]))
        {
          InsertMember(x, t[1..], key, dir, rest[j]);
          if rest[j] != x {
            var m :| 0 <= m < |t[1..]| && t[1..][m] == rest[j];
            assert t[m + 1] == rest[j];
          }
        }
        ConsSorted(t[0], rest, key, dir);
      }
    }
  }

  /** Kotlin's stable `sortedBy(key)` / `sortedByDescending(key)`. */
  function SortBy<T>(s: seq<T>, key: T -> string, dir: Direction): (r: seq<T>)
    ensures multiset(r) == multiset(s)
    ensures |r| == |s|
    ensures SortedBy(r, key, dir)
  {
    if |s| == 0 then []
    else
      var rest := SortBy(s[1..], key, dir);
      assert s == [s[0]] + s[1..];
      InsertSorted(s[0], rest, key, dir);
      assert |multiset(Insert(s[0], rest, key, dir))| == |multiset(s)|;
      Insert(s[0], rest, key, dir)
  }

  /** `x` goes in front of every item of its own key class. */
  lemma {:induction false} InsertKeyClass<T(!new)>(x: T, t: seq<T>, key: T -> string, dir: Direction, k: string)
    ensures KeyClass(Insert(x, t, key, dir), key, k)
         == (if key(x) == k then [x] + KeyClass(t, key, k) else KeyClass(t, key, k))
  {
    var r := Insert(x, t, key, dir);
    KeyClassHead(r, key, k);
    if |t| == 0 {
      assert r[1..] == [];
    } else if InOrder(dir, key(x), key(t[0])) {
      assert r[1..] == t;
    } else {
      InOrderReflexive(dir, key(x));
      assert key(t[0]) != key(x);
      InsertKeyClass(x, t[1..], key, dir, k);
      KeyClassHead(t, key, k);
      assert r[1..] == Insert(x, t[1..], key, dir);
    }
  }

  /** Stability: items with equal keys keep their relative input order. */
  lemma {:induction false} SortByStable<T(!new)>(s: seq<T>, key: T -> string, dir: Direction, k: string)
    ensures KeyClass(SortBy(s, key, dir), key, k) == KeyClass(s, key, k)
  {
    if |s| > 0 {
      SortByStable(s[1..], key, dir, k);
      InsertKeyClass(s[0], SortBy(s[1..], key, dir), key, dir, k);
    }
  }

  /** One step of the insertion sort. */
  lemma SortByCons<T>(s: seq<T>, key: T -> string, dir: Direction)
    requires |s| > 0
    ensures SortBy(s, key, dir) == Insert(s[0], SortBy(s[1..], key, dir), key, dir)
  {
  }

  /** An item in order with the head of a list is inserted in front of it. */
  lemma InsertFront<T>(x: T, t: seq<T>, key: T -> string, dir: Direction)
    requires |t| > 0 && InOrder(dir, key(x), key(t[0]))
    ensures Insert(x, t, key, dir) == [x] + t
  {
  }

  /** An item out of order with the head of a list is inserted after it. */
  lemma InsertPast<T>(x: T, t: seq<T>, key: T -> string, dir: Direction)
    requires |t| > 0 && !InOrder(dir, key(x), key(t[0]))
    ensures Insert(x, t, key, dir) == [t[0]] + Insert(x, t[1..], key, dir)
  {
  }

  /** Idempotence: a list already in order is returned unchanged. */
  lemma {:induction false} SortBySortedIsIdentity<T>(s: seq<T>, key: T -> string, dir: Direction)
    requires SortedBy(s, key, dir)
    ensures SortBy(s, key, dir) == s
  {
    if |s| > 0 {
      SortedTail(s, key, dir);
      SortBySortedIsIdentity(s[1..], key, dir);
      SortByCons(s, key, dir);
      if |s| > 1 {
        assert InOrder(dir, key(s[0]), key(s[1]));
        InsertFront(s[0], s[1..], key, dir);
      }
      assert s == [s[0]] + s[1..];
    }
  }

  /** Sorting twice in the same direction gives the same list as sorting once. */
  lemma SortByIdempotent<T>(s: seq<T>, key: T -> string, dir: Direction)
    ensures SortBy(SortBy(s, key, dir), key, dir) == SortBy(s, key, dir)
  {
    SortBySortedIsIdentity(SortBy(s, key, dir), key, dir);
  }

  // ----- uniqueness of a stable sorted order -----

  lemma KeyClassHead<T(!new)>(s: seq<T>, key: T -> string, k: string)
    requires |s| > 0
    ensures KeyClass(s, key, k) == if key(s[0]) == k then [s[0]] + KeyClass(s[1..], key, k) else KeyClass(s[1..], key, k)
  {
  }

  lemma KeyClassMember<T(!new)>(s: seq<T>, key: T -> string, k: string, x: T)
    requires x in KeyClass(s, key, k)
    ensures x in s && key(x) == k
  {
    var c := KeyClass(s, key, k);
    KeepIsFilter(s, y => key(y) == k);
    SubseqMembers(c, s);
  }

  lemma SortedTail<T>(s: seq<T>, key: T -> string, dir: Direction)
    requires |s| > 0 && SortedBy(s, key, dir)
    ensures SortedBy(s[1..], key, dir)
  {
    forall x, y | 0 <= x < y < |s[1..]| ensures InOrder(dir, key(s[1..][x]), key(s[1..][y])) {
      assert s[1..][x] == s[x + 1] && s[1..][y] == s[y + 1];
    }
  }

  /** Lists with equal heads and equal key classes have tails with equal key classes. */
  lemma TailClasses<T(!new)>(a: seq<T>, b: seq<T>, key: T -> string)
    requires |a| > 0 && |b| > 0 && a[0] == b[0]
    requires forall k :: KeyClass(a, key, k) == KeyClass(b, key, k)
    ensures forall k :: KeyClass(a[1..], key, k) == KeyClass(b[1..], key, k)
  {
    forall k
      ensures KeyClass(a[1..], key, k) == KeyClass(b[1..], key, k)
    {
      KeyClassHead(a, key, k);
      KeyClassHead(b, key, k);
      assert KeyClass(a, key, k) == KeyClass(b, key, k);
      if key(a[0]) == k {
        assert KeyClass(a, key, k)[1..] == KeyClass(a[1..], key, k);
        assert KeyClass(b, key, k)[1..] == KeyClass(b[1..], key, k);
      }
    }
  }

  /** Sorted lists with the same key classes start with the same item. */
  lemma SortedSameHead<T(!new)>(a: seq<T>, b: seq<T>, key: T -> string, dir: Direction)
    requires |a| > 0 && |b| > 0
    requires SortedBy(a, key, dir) && SortedBy(b, key, dir)
    requires forall k :: KeyClass(a, key, k) == KeyClass(b, key, k)
    ensures a[0] == b[0]
  {
    var ka, kb := key(a[0]), key(b[0]);
    KeyClassHead(a, key, ka);
    KeyClassHead(a, key, kb);
    KeyClassHead(b, key, ka);
    KeyClassHead(b, key, kb);
    assert KeyClass(a, key, ka) == KeyClass(b, key, ka);
    assert KeyClass(a, key, kb) == KeyClass(b, key, kb);
    InOrderReflexive(dir, ka);
    InOrderReflexive(dir, kb);
    assert a[0] in KeyClass(b, key, ka);
    KeyClassMember(b, key, ka, a[0]);
    assert b[0] in KeyClass(a, key, kb);
    KeyClassMember(a, key, kb, b[0]);
    var i :| 0 <= i < |a| && a[i] == b[0];
    var j :| 0 <= j < |b| && b[j] == a[0];
    assert InOrder(dir, ka, key(a[i]));
    assert InOrder(dir, kb, key(b[j]));
    InOrderAntisymmetric(dir, ka, kb);
  }

  /** Two lists sorted in the same direction whose key classes all agree are
      equal: a stable sort has exactly one possible result. */
  lemma {:induction false} SortedUnique<T(!new)>(a: seq<T>, b: seq<T>, key: T -> string, dir: Direction)
    requires SortedBy(a, key, dir) && SortedBy(b, key, dir)
    requires forall k :: KeyClass(a, key, k) == KeyClass(b, key, k)
    ensures a == b
    decreases |a|
  {
    if |a| == 0 && |b| > 0 {
      KeyClassHead(b, key, key(b[0]));
    } else if |a| > 0 && |b| == 0 {
      KeyClassHead(a, key, key(a[0]));
    } else if |a| > 0 {
      SortedSameHead(a, b, key, dir);
      TailClasses(a, b, key);
      SortedTail(a, key, dir);
      SortedTail(b, key, dir);
      SortedUnique(a[1..], b[1..], key, dir);
      assert a == [a[0]] + a[1..] && b == [b[0]] + b[1..];
    }
  }

  /** What a stable sort must return: a permutation of `s`, in `dir` order,
      with every key class in its input order. */
  ghost predicate IsStableSortOf<T(!new)>(r: seq<T>, s: seq<T>, key: T -> string, dir: Direction) {
    && multiset(r) == multiset(s)
    && SortedBy(r, key, dir)
    && (forall k :: KeyClass(r, key, k) == KeyClass(s, key, k))
  }

  /** The insertion sort is a stable sort ... */
  lemma SortByIsStableSort<T(!new)>(s: seq<T>, key: T -> string, dir: Direction)
    ensures IsStableSortOf(SortBy(s, key, dir), s, key, dir)
  {
    forall k ensures KeyClass(SortBy(s, key, dir), key, k) == KeyClass(s, key, k) {
      SortByStable(s, key, dir, k);
    }
  }

  /** ... and the only one: any stable sort of `s` equals it. */
  lemma StableSortIsSortBy<T(!new)>(r: seq<T>, s: seq<T>, key: T -> string, dir: Direction)
    requires IsStableSortOf(r, s, key, dir)
    ensures r == SortBy(s, key, dir)
  {
    SortByIsStableSort(s, key, dir);
    SortedUnique(r, SortBy(s, key, dir), key, dir);
  }

  // ----- descending versus ascending -----

  /** No two items share a key. */
  predicate DistinctKeys<T>(s: seq<T>, key: T -> string) {
    forall i, j :: 0 <= i < j < |s| ==> key(s[i]) != key(s[j])
  }

  lemma {:induction false} KeyClassReverse<T(!new)>(s: seq<T>, key: T -> string, k: string)
    ensures KeyClass(Reverse(s), key, k) == Reverse(KeyClass(s, key, k))
  {
    if |s| > 0 {
      KeyClassReverse(s[1..], key, k);
      KeepAppend(Reverse(s[1..]), [s[0]], x => key(x) == k);
      KeyClassHead(s, key, k);
      if key(s[0]) == k {
        var c := KeyClass(s, key, k);
        assert c[1..] == KeyClass(s[1..], key, k);
      }
    }
  }

  lemma {:induction false} KeyClassOfDistinct<T(!new)>(s: seq<T>, key: T -> string, k: string)
    requires DistinctKeys(s, key)
    ensures |KeyClass(s, key, k)| <= 1
  {
    if |s| > 0 {
      KeyClassHead(s, key, k);
      if key(s[0]) == k {
        KeepNone(s[1..], x => key(x) == k);
      } else {
        KeyClassOfDistinct(s[1..], key, k);
      }
    }
  }

  lemma ReverseOfAscendingIsDescending<T>(a: seq<T>, key: T -> string)
    requires SortedBy(a, key, Ascending)
    ensures SortedBy(Reverse(a), key, Descending)
  {
    var r := Reverse(a);
    forall i, j | 0 <= i < j < |r|
      ensures InOrder(Descending, key(r[i]), key(r[j]))
    {
      assert r[i] == a[|a| - 1 - i] && r[j] == a[|a| - 1 - j];
    }
  }

  /** With pairwise distinct keys, the descending sort is the ascending sort reversed. */
  lemma DescendingIsReversedAscending<T(!new)>(s: seq<T>, key: T -> string)
    requires DistinctKeys(s, key)
    ensures SortBy(s, key, Descending) == Reverse(SortBy(s, key, Ascending))
  {
    var asc, desc := SortBy(s, key, Ascending), SortBy(s, key, Descending);
    ReverseOfAscendingIsDescending(asc, key);
    forall k
      ensures KeyClass(Reverse(asc), key, k) == KeyClass(desc, key, k)
    {
      KeyClassReverse(asc, key, k);
      SortByStable(s, key, Ascending, k);
      SortByStable(s, key, Descending, k);
      KeyClassOfDistinct(s, key, k);
      var c := KeyClass(s, key, k);
      assert |c| == 0 || c == [c[0]];
    }
    SortedUnique(Reverse(asc), desc, key, Descending);
  }

  // ----- the six entry points of `Sorting` -----

  /** `sortBy(list) { it.name }` on a nullable list: null stays null,
      anything else becomes its stable sort by `key`. */
  function SortNullable<T(!new)>(list: Option<seq<T>>, key: T -> string, dir: Direction): (r: Option<seq<T>>)
    ensures r.None? <==> list.None?
    ensures r.Some? ==> IsStableSortOf(r.value, list.value, key, dir)
  {
    match list
    case None => None
    case Some(s) =>
      SortByIsStableSort(s, key, dir);
      Some(SortBy(s, key, dir))
  }

  /** Sorting a nullable list twice the same way is sorting it once. */
  lemma SortNullableIdempotent<T(!new)>(list: Option<seq<T>>, key: T -> string, dir: Direction)
    ensures SortNullable(SortNullable(list, key, dir), key, dir) == SortNullable(list, key, dir)
  {
    if list.Some? {
      SortByIdempotent(list.value, key, dir);
    }
  }

  function SortCharactersByNameAscendant(list: Option<seq<Character>>): (r: Option<seq<Character>>)
    ensures r.None? <==> list.None?
    ensures r.Some? ==> IsStableSortOf(r.value, list.value, CharacterName, Ascending)
  {
    SortNullable(list, CharacterName, Ascending)
  }

  function SortCharactersByNameDescendant(list: Option<seq<Character>>): (r: Option<seq<Character>>)
    ensures r.None? <==> list.None?
    ensures r.Some? ==> IsStableSortOf(r.value, list.value, CharacterName, Descending)
  {
    SortNullable(list, CharacterName, Descending)
  }

  function SortPlanetsByNameAscendant(list: Option<seq<Planet>>): (r: Option<seq<Planet>>)
    ensures r.None? <==> list.None?
    ensures r.Some? ==> IsStableSortOf(r.value, list.value, PlanetName, Ascending)
  {
    SortNullable(list, PlanetName, Ascending)
  }

  function SortPlanetsByNameDescendant(list: Option<seq<Planet>>): (r: Option<seq<Planet>>)
    ensures r.None? <==> list.None?
    ensures r.Some? ==> IsStableSortOf(r.value, list.value, PlanetName, Descending)
  {
    SortNullable(list, PlanetName, Descending)
  }

  function SortVehiclesByNameAscendant(list: Option<seq<Ship>>): (r: Option<seq<Ship>>)
    ensures r.None? <==> list.None?
    ensures r.Some? ==> IsStableSortOf(r.value, list.value, ShipName, Ascending)
  {
    SortNullable(list, ShipName, Ascending)
  }

  function SortVehiclesByNameDescendant(list: Option<seq<Ship>>): (r: Option<seq<Ship>>)
    ensures r.None? <==> list.None?
    ensures r.Some? ==> IsStableSortOf(r.value, list.value, ShipName, Descending)
  {
    SortNullable(list, ShipName, Descending)
  }

  // ----- worked examples -----

  function Named(name: string, url: string): Character {
    Character(name, "", "", "", "", "", "", [], url)
  }

  /** The order of the three names of the example below. */
  lemma ExampleNamesOrder()
    ensures Le("Han", "Leia") && !Le("Luke", "Han") && !Le("Luke", "Leia")
  {
    assert Le("Han", "Leia") by { assert 'H' < 'L'; }
    assert !Le("Luke", "Han") by { assert 'H' < 'L'; }
    assert !Le("Luke", "Leia") by {
      assert "Luke"[1..] == "uke" && "Leia"[1..] == "eia";
      assert !Le("uke", "eia");
    }
  }

  /** Luke, Han, Leia sorted ascending by name gives Han, Leia, Luke. */
  lemma AscendingExample()
    ensures var luke, han, leia := Named("Luke", "1"), Named("Han", "2"), Named("Leia", "3");
      SortBy([luke, han, leia], CharacterName, Ascending) == [han, leia, luke]
  {
    var luke, han, leia := Named("Luke", "1"), Named("Han", "2"), Named("Leia", "3");
    ExampleNamesOrder();
    var k, up := CharacterName, Ascending;
    SortByCons([leia], k, up);
    assert SortBy([leia], k, up) == [leia];
    SortByCons([han, leia], k, up);
    assert [han, leia][1..] == [leia];
    InsertFront(han, [leia], k, up);
    assert SortBy([han, leia], k, up) == [han, leia];
    SortByCons([luke, han, leia], k, up);
    assert [luke, han, leia][1..] == [han, leia];
    InsertPast(luke, [han, leia], k, up);
    InsertPast(luke, [leia], k, up);
    assert [leia][1..] == [];
  }

  /** The order of the example's names as the descending sort reads it. */
  lemma ExampleNamesDescending()
    ensures !InOrder(Descending, "Han", "Leia") && InOrder(Descending, "Luke", "Leia")
  {
    assert !Le("Leia", "Han") by { assert 'H' < 'L'; }
    ExampleNamesOrder();
    LeTotal("Leia", "Luke");
  }

  /** The same three sorted descending by name give Luke, Leia, Han. */
  lemma DescendingExample()
    ensures var luke, han, leia := Named("Luke", "1"), Named("Han", "2"), Named("Leia", "3");
      SortBy([luke, han, leia], CharacterName, Descending) == [luke, leia, han]
  {
    var luke, han, leia := Named("Luke", "1"), Named("Han", "2"), Named("Leia", "3");
    ExampleNamesDescending();
    var k, down := CharacterName, Descending;
    SortByCons([leia], k, down);
    assert SortBy([leia], k, down) == [leia];
    SortByCons([han, leia], k, down);
    assert [han, leia][1..] == [leia];
    InsertPast(han, [leia], k, down);
    assert [leia][1..] == [];
    assert SortBy([han, leia], k, down) == [leia, han];
    SortByCons([luke, han, leia], k, down);
    assert [luke, han, leia][1..] == [han, leia];
    InsertFront(luke, [leia, han], k, down);
  }

  /** With two equal names the descending sort keeps input order, so it is
      not the reverse of the ascending sort: the symmetry needs distinct names. */
  lemma TiesBreakReverseSymmetry()
    ensures var s := [Named("Han", "1"), Named("Han", "2")];
      SortBy(s, CharacterName, Descending) != Reverse(SortBy(s, CharacterName, Ascending))
  {
    var a, b := Named("Han", "1"), Named("Han", "2");
    LeReflexive("Han");
    assert Insert(b, [], CharacterName, Ascending) == [b];
    assert Insert(a, [b], CharacterName, Ascending) == [a, b];
    assert Insert(b, [], CharacterName, Descending) == [b];
    assert Insert(a, [b], CharacterName, Descending) == [a, b];
    assert [a, b][1..] == [b];
    assert Reverse([a, b]) == [b, a];
  }
}

=== FILE: text.dfy ===
/**
 * Character and string operations the screens rely on: case-insensitive
 * comparison and containment (`lowercase()`, `contains(ignoreCase = true)`)
 * and the lexicographic order of `String.compareTo` used by the name sorts.
 * Case folding is ASCII only.
 */
module Text {

  /** Lower-case of one character: ASCII letters are folded, everything else is kept. */
  function Lower(c: char): char {
    if 'A' <= c <= 'Z' then (c as int - 'A' as int + 'a' as int) as char else c
  }

  /** `s.lowercase()`, one character at a time. */
  function LowerStr(s: string): (r: string)
    ensures |r| == |s|
    ensures forall i :: 0 <= i < |s| ==> r[i] == Lower(s[i])
  {
    if |s| == 0 then [] else [Lower(s[0])] + LowerStr(s[1..])
  }

  /** Two strings are equal ignoring case. */
  predicate EqualsIgnoreCase(a: string, b: string) {
    LowerStr(a) == LowerStr(b)
  }

  /** `s.startsWith(p, ignoreCase = true)`, character by character. */
  predicate StartsWithIgnoreCase(s: string, p: string) {
    |p| <= |s| && forall i :: 0 <= i < |p| ==> Lower(s[i]) == Lower(p[i])
  }

  /** `s.contains(q, ignoreCase = true)`: try every start position in turn. */
  predicate ContainsIgnoreCase(s: string, q: string)
    decreases |s|
  {
    StartsWithIgnoreCase(s, q) || (|s| > 0 && ContainsIgnoreCase(s[1..], q))
  }

  /** `q` occurs in `s` at position `i`, ignoring case. */
  predicate OccursAt(s: string, q: string, i: nat) {
    i + |q| <= |s| && EqualsIgnoreCase(s[i..i + |q|], q)
  }

  lemma OccursAtZero(s: string, q: string)
    ensures OccursAt(s, q, 0) <==> StartsWithIgnoreCase(s, q)
  {
    if StartsWithIgnoreCase(s, q) {
      assert LowerStr(s[0..|q|]) == LowerStr(q);
    }
    if OccursAt(s, q, 0) {
      forall j | 0 <= j < |q|
        ensures Lower(s[j]) == Lower(q[j])
      {
        assert LowerStr(s[0..|q|])[j] == LowerStr(q)[j];
      }
    }
  }

  /** An occurrence in the tail is an occurrence one position later in the whole. */
  lemma OccursShift(s: string, q: string, i: nat)
    requires |s| > 0
    ensures OccursAt(s[1..], q, i) <==> OccursAt(s, q, i + 1)
  {
    if i + 1 + |q| <= |s| {
      assert s[1..][i..i + |q|] == s[i + 1..i + 1 + |q|];
    }
  }

  /** The search loop above agrees with the textbook definition of containment:
      some window of `s` of length `|q|` equals `q` ignoring case. */
  lemma {:induction false} ContainsIgnoreCaseIffOccurs(s: string, q: string)
    ensures ContainsIgnoreCase(s, q) <==> exists i: nat :: OccursAt(s, q, i)
    decreases |s|
  {
    OccursAtZero(s, q);
    if StartsWithIgnoreCase(s, q) {
      assert OccursAt(s, q, 0);
    } else if |s| > 0 {
      ContainsIgnoreCaseIffOccurs(s[1..], q);
      if ContainsIgnoreCase(s, q) {
        var i: nat :| OccursAt(s[1..], q, i);
        OccursShift(s, q, i);
      } else {
        forall i: nat | OccursAt(s, q, i)
          ensures false
        {
          if i > 0 {
            OccursShift(s, q, i - 1);
          }
        }
      }
    }
  }

  /** Every string contains the empty query. */
  lemma ContainsEmpty(s: string)
    ensures ContainsIgnoreCase(s, "")
  {
  }

  /** `a.compareTo(b) <= 0`: lexicographic order on character codes, a
      proper prefix coming first. */
  predicate Le(a: string, b: string) {
    |a| == 0 || (|b| > 0 && (a[0] < b[0] || (a[0] == b[0] && Le(a[1..], b[1..]))))
  }

  lemma {:induction false} LeReflexive(a: string)
    ensures Le(a, a)
  {
    if |a| > 0 {
      LeReflexive(a[1..]);
    }
  }

  lemma {:induction false} LeAntisymmetric(a: string, b: string)
    requires Le(a, b) && Le(b, a)
    ensures a == b
  {
    if |a| > 0 && |b| > 0 {
      LeAntisymmetric(a[1..], b[1..]);
      assert a == [a[0]] + a[1..];
      assert b == [b[0]] + b[1..];
    }
  }

  lemma {:induction false} LeTransitive(a: string, b: string, c: string)
    requires Le(a, b) && Le(b, c)
    ensures Le(a, c)
  {
    if |a| > 0 && a[0] == b[0] && b[0] == c[0] {
      LeTransitive(a[1..], b[1..], c[1..]);
    }
  }

  lemma {:induction false} LeTotal(a: string, b: string)
    ensures Le(a, b) || Le(b, a)
  {
    if |a| > 0 && |b| > 0 && a[0] == b[0] {
      LeTotal(a[1..], b[1..]);
    }
  }
}

=== FILE: wrappers.dfy ===
/** Kotlin's nullable values (`T?`) as an explicit Some/None datatype. */
module Wrappers {

  datatype Option<+T> = None | Some(value: T) {

    /** The value, or `default` when absent: Kotlin's `x ?: default`. */
    function GetOr(default: T): T {
      match this
      case Some(v) => v
      case None => default
    }
  }

  /** Kotlin's `isNullOrEmpty()` on a nullable list. */
  predicate IsNullOrEmpty<T>(o: Option<seq<T>>) {
    o.None? || |o.value| == 0
  }
}
